=== FILE: README.md ===
# Privacy Possum tracking-decision engine in Dafny

This project models the core of the Privacy Possum browser extension: the
in-memory structures that record what it has seen and the rules that decide
what to do with a request.

- **Suffix tree** (`suffixtree.dfy`): a trie keyed by the labels of a domain
  name read right to left. It offers point `setItem`/`getItem` and
  `getBranchData`, which collects the labelled nodes along a path.
- **Records** (`schemes.dfy`): `Action`, `Path` and `Domain`. A Domain maps
  URL paths to a decision and may carry one domain-wide action.
- **Domain store** (`store.dfy`): the tree of Domains by hostname, written
  through to a persisted key/value map. It also offers the URL convenience
  operations, the shallow-merge `update` and `load`.
- **Tab tracker** (`tabs.dfy`): the open tabs, each with its frames and the
  resources they requested. It also holds each tab's activation, its actions
  and its counts of removed headers.
- **Request inputs** (`requests.dfy`): what the browser hands the engine, meaning
  the parsed URL, the request details and the headers.
- **Reasons** (`reasons.dfy`, `headers.dfy`, `etag.dfy`):
  - the table from a reason name to its handler, and the dispatch on it;
  - the tab and host deactivation toggles;
  - the fingerprint-report guard;
  - header stripping;
  - the per-host etag state machine.
- **Message dispatcher** (`messages.dfy`): routes content-script messages by type.
- **Public Suffix List converter** (`psl.dfy`): the `convert` function of the
  list-fetching script. It classifies each line of the Public Suffix List and
  sorts the entries by name.

State that the source updates in place is modelled as classes:

- `Tree`, `DomainStore`, `Tab`, `Tabs`, the request `Details`, the header list;
- the handler tables and the message dispatcher.

Their methods carry `modifies` clauses, and their contracts tie the new state
to specification functions. The records the source copies or replaces are
datatypes: Domain, Path, Action, Frame and Resource. Pure rules are functions,
with lemmas that state their properties.

Two browser services enter as parameters:

- URL parsing (`new URL(...)`) is a `UrlParser`, a function from a string to
  its `href`, `hostname` and `pathname`.
- IDNA encoding (`punycode`) is a function on strings.

Where a test of the repository and the code disagree, the code is followed.
The fingerprint report of `reasons.js` stores its action without a `response`
field, although `src/js/test/messages_test.js:59-65` expects `CANCEL` there.

## Model

| member | source | states |
|---|---|---|
| SuffixTree.Split | src/js/suffixtree.js:85-87 | `split('.')` yields at least one label, and no label contains a dot |
| SuffixTree.Reverse | src/js/suffixtree.js:86 | the result is the input in reverse order, element by element |
| SuffixTree.Splitter | src/js/suffixtree.js:85-87 | every key walks a label path of at least one label |
| SuffixTree.JoinSplit | src/js/suffixtree.js:85-87 | joining the split labels with dots gives back the key |
| SuffixTree.SplitLabelDot | src/js/suffixtree.js:85-87 | a dot-free label followed by a dot splits off as the first label |
| SuffixTree.SplitLabel | src/js/suffixtree.js:85-87 | a dot-free label splits to itself alone |
| SuffixTree.SplitJoin | src/js/suffixtree.js:85-87 | splitting a join of dot-free labels gives the labels back |
| SuffixTree.SplitterInjective | src/js/suffixtree.js:85-87 | two different keys never walk the same label path |
| SuffixTree.SplitterExtends | src/js/suffixtree.js:85-87 | a sub-domain walks its parent's path and then one label further |
| SuffixTree.SplitterExample | src/js/suffixtree.js:85-87 | `a.b.com` walks `com`, `b`, `a` |
| SuffixTree.AncestorsExist | src/js/suffixtree.js:28-33 | in a tree built by `setAgg`, every ancestor of an existing node exists |
| SuffixTree.InsertPrefixClosed | src/js/suffixtree.js:28-33 | inserting along a path, creating missing nodes, keeps every node's parent present |
| SuffixTree.GetAfterSet | src/js/suffixtree.js:68-76 | after `setItem(k, v)`, `getItem(k)` answers `v` |
| SuffixTree.SetLeavesOthers | src/js/suffixtree.js:28-33 | `setItem(k, v)` leaves `getItem(k')` unchanged for every other key, because nodes created on the way carry no label data |
| SuffixTree.SetOverwrites | src/js/suffixtree.js:15-17 | a second `setItem` on the same key only replaces the label data |
| SuffixTree.CollectSound | src/js/suffixtree.js:39-45 | every label in the branch aggregator was traversed and led to a labelled node |
| SuffixTree.CollectComplete | src/js/suffixtree.js:39-45 | every labelled node on the walk, ancestors included, is in the aggregator under its label |
| SuffixTree.CollectDeepestWins | src/js/suffixtree.js:42 | when a label repeats along the walk, the deepest labelled node's data is the one kept |
| SuffixTree.BranchAbsentIff | src/js/suffixtree.js:78-82 | `getBranchData` is undefined exactly when the key's full label path is absent |
| SuffixTree.BranchSeesParent | src/js/suffixtree.js:39-45 | data stored on `b.com` is visible from the branch of `a.b.com` |
| SuffixTree.Tree.constructor | src/js/suffixtree.js:48-51 | a new tree holds only an unlabelled root |
| SuffixTree.Tree.SetItem | src/js/suffixtree.js:68-71 | the walk creates the missing nodes and labels the last one; the key reads back the value and no other key changes |
| SuffixTree.Tree.GetItem | src/js/suffixtree.js:73-76 | the loop answers the label data of the key's node, and undefined when a node on the way is missing |
| SuffixTree.Tree.GetBranchData | src/js/suffixtree.js:78-82 | the loop answers the accumulated branch data, or undefined for an incomplete path |
| Schemes.ReasonOnly | src/js/schemes.js:16-20 | an Action built from a reason alone has that reason and no response or href |
| Schemes.NewDomain | src/js/schemes.js:30-32 | `new Domain()` has no paths and no action |
| Schemes.DomainFrom | src/js/schemes.js:33-35 | `new Domain(data)` adopts `data.paths` and nothing else |
| Schemes.SetPath | src/js/schemes.js:47-50 | `setPath` replaces the entry for its path only; the other paths and the domain's action are kept |
| Schemes.UpdateDomainPath | src/js/schemes.js:53-59 | the path is set on the given Domain, keeping its other paths, or on a fresh Domain when there is none or the value is not a Domain |
| Schemes.GetAfterSetPath | src/js/schemes.js:39-50 | a path just set answers with its decision |
| Schemes.SetPathLeavesOthers | src/js/schemes.js:39-50 | setting one path leaves every other path's answer unchanged |
| Schemes.UpdateDomainPathAnswers | src/js/schemes.js:39-59 | after `updateDomainPath`, `getResponse` of the path is the decision given |
| Schemes.NewDomainAnswersNoAction | src/js/schemes.js:39-45 | a fresh Domain answers NO_ACTION for every path |
| Requests.LowerChar | src/js/reasons/headers.js:22 | ASCII capitals map to their small letter and every other character is kept |
| Requests.Lower | src/js/reasons/headers.js:22 | `toLowerCase` keeps the length and lower-cases each character |
| Requests.LowerIdempotent | src/js/reasons/headers.js:22 | lower-casing twice is the same as lower-casing once |
| Store.Merge | src/js/store.js:55-59 | `Object.assign` copies the patch's fields over the value and keeps the fields the patch lacks |
| Store.MergeLaws | src/js/store.js:57 | an empty patch changes nothing, and merging the same patch twice equals merging it once |
| Store.RestoreAsWritten | src/js/store.js:32 | as written, `load` rebuilds a Domain that equals the persisted one exactly when that one had no domain-wide action |
| Store.LoadForgetsHostDeactivation | src/js/store.js:32 | a persisted USER_HOST_DEACTIVATE action is lost on load |
| Store.Restore | src/js/store.js:28-35 | the corrected load keeps the paths and the action of a persisted value |
| Store.DomainStore.constructor | src/js/store.js:11-26 | a new store has an empty tree and no persisted keys (with `tree.get` read as `getItem`; as written, construction throws) |
| Store.DomainStore.Get | src/js/store.js:41-44 | `get`, the tree's `getItem` (the bound `tree.get` does not exist), finds a value exactly for the persisted keys |
| Store.DomainStore.Has | src/js/store.js:46-48 | `has(k)` holds exactly when `get(k)` finds a value, that is, when `k` is persisted |
| Store.DomainStore.Set | src/js/store.js:50-53 | the tree (through `setItem`, for the nonexistent `tree.set`) and the persisted map both get the value; `get(k)` answers it and no other key changes; a written-through store stays written through |
| Store.DomainStore.Update | src/js/store.js:55-59 | stores the existing value, or `{}`, with the patch's fields copied over, in the tree and in the persisted map; no other key changes; a written-through store stays written through |
| Store.DomainStore.SetUrl | src/js/store.js:67-70 | the persisted map gets the value under the URL's hostname; every URL with that hostname then reads the value; no other hostname changes; a written-through store stays written through |
| Store.DomainStore.UpdateUrl | src/js/store.js:72-74 | stores `callback(getUrl(url))` under the URL's hostname, in the tree and in the persisted map; no other hostname changes; a written-through store stays written through |
| Store.DomainStore.GetBranchData | src/js/store.js:43 | the tree's branch data of the key; undefined only when the key holds nothing, namely exactly when its label path is absent (`SuffixTree.BranchAbsentIff`) |
| Store.DomainStore.LoadWith | src/js/store.js:28-35 | the load loop, with `tree.set` read as `setItem`: the store's keys are the persisted keys, and each holds the restored persisted value |
| Store.DomainStore.LoadAsWritten | src/js/store.js:28-35 | as written in its rebuild of each value (the tree slip read by intent): each persisted key comes back holding only its paths |
| Store.DomainStore.Load | src/js/store.js:28-35 | corrected, with the tree slip read by intent: the keys equal the persisted key set, and each key answers its persisted Domain |
| Store.DomainStore.ReloadAsWritten | src/js/store.js:11-35 | as written in its rebuild of each value (the tree slip read by intent), a store reloaded from its own persisted map keeps its keys, and each key answers only the paths of the Domain it held |
| Store.DomainStore.Reload | src/js/store.js:11-35 | corrected, with the tree slip read by intent: a store reloaded from its own persisted map keeps its keys, each key answers the Domain it held before, and the reloaded store is again written through |
| Store.SetDomainPath | src/js/reasons.js:45 | the URL's path on the URL's host answers with the action; other hosts are kept |
| Store.UpdateDomain | src/js/reasons.js:82-96 | the mutator's result for the host's Domain (or a fresh one) is written back, deleted or skipped; other hosts are untouched |
| Store.DeleteDomain | src/js/reasons/headers.js:69 | the host's record is removed and no other host changes |
| Tabs.NewFrame | src/js/tabs.js:22-41 | a new frame has no resources and no children, and has a url exactly when its type ends in `_frame` |
| Tabs.Placeholder | src/js/tabs.js:226 | a parent known only through a child is a frame without a url |
| Tabs.RecordResource | src/js/tabs.js:51-55 | the url is recorded if new; resources already recorded are kept |
| Tabs.FirstResourceWins | src/js/tabs.js:51-55 | recording the same url twice leaves the first Resource |
| Tabs.AddToFrames | src/js/tabs.js:212-228 | the request's frame exists and has the url; the parent, if any, exists and lists the frame as a child; other frames are unchanged |
| Tabs.AddReusesFrame | src/js/tabs.js:212-216 | an existing frame is reused: only its resources and children grow |
| Tabs.AddNewFrameUrl | src/js/tabs.js:221-228 | a new frame gets a url only for a frame request, and a new parent is a url-less placeholder |
| Tabs.AddToFramesIdempotent | src/js/tabs.js:212-228 | adding the same request twice equals adding it once |
| Tabs.HasResourceAfterAdd | src/js/tabs.js:47-55 | after adding, the frame has the resource of the request's type exactly when the url was new or was already recorded with that type |
| Tabs.MainFrameGivesTabUrl | src/js/tabs.js:165-171 | a `main_frame` request for frame 0 gives the tab its url |
| Tabs.Inc | src/js/tabs.js:134 | the counter's `add` raises the name's count by one and no other count changes |
| Tabs.SumCounts | src/js/tabs.js:74 | the counter's `merge` adds the two counts of each name |
| Tabs.AddNamesCounts | src/js/tabs.js:134 | each name's count rises by the number of removed headers with that lower-cased name |
| Tabs.AddNamesKeys | src/js/tabs.js:134 | exactly the lower-cased names of the removed headers are added to the counter |
| Tabs.MergeFrames | src/js/tabs.js:75-79 | a merge keeps the tab's own frames and takes the other tab's frames only under ids the tab lacks |
| Tabs.Tab.constructor | src/js/tabs.js:59-70 | a new tab is active and has no frames, actions or header counts, and header counting is on |
| Tabs.Tab.GetData | src/js/tabs.js:82-89 | the snapshot holds the tab's `active`, actions, header counts and `headerCountsActive` |
| Tabs.Tab.AddListener | src/js/utils.js:49-51 | adds the listener to the set |
| Tabs.Tab.RemoveListener | src/js/utils.js:53-55 | removes the listener from the set |
| Tabs.Tab.OnChange | src/js/utils.js:57-59 | every registered listener is handed the tab's current data |
| Tabs.Tab.Merge | src/js/tabs.js:73-80 | header counts are summed, and frames are taken from the other tab only under ids this tab lacks |
| Tabs.Tab.SetActiveState | src/js/tabs.js:108-112 | sets the flag and notifies the listeners |
| Tabs.Tab.ToggleActiveState | src/js/tabs.js:114-116 | flips the flag and notifies the listeners |
| Tabs.Tab.MarkAction | src/js/tabs.js:118-131 | nothing on an inactive tab; on an active tab REMOVE_ACTION deletes the url's entry and any other action sets it |
| Tabs.Tab.MarkHeaders | src/js/tabs.js:133-137 | each removed header's lower-cased name is counted once per header |
| Tabs.Tabs.constructor | src/js/tabs.js:141-143 | no tabs |
| Tabs.Tabs.GetTab | src/js/tabs.js:149-151 | the tab under the id, present exactly when the id is known |
| Tabs.Tabs.SetTab | src/js/tabs.js:157-159 | replaces the entry of that id only |
| Tabs.Tabs.RemoveTab | src/js/tabs.js:161-163 | deletes the entry, tells whether there was one, and removing again is harmless |
| Tabs.Tabs.GetFrameUrl | src/js/tabs.js:173-183 | the frame's url; undefined for an unknown tab or frame, never failing |
| Tabs.Tabs.GetTabUrl | src/js/tabs.js:165-171 | the url of the tab's frame 0 |
| Tabs.Tabs.HasResource | src/js/tabs.js:195-201 | never fails: false for an unknown tab, frame or url, else whether the recorded type is the given one |
| Tabs.Tabs.AddResource | src/js/tabs.js:203-229 | an unseen tab, or a `main_frame` request, gets a fresh tab that discards the old frames, leaving the replaced tab object untouched; the frames then get the request; other tabs are untouched |
| Tabs.Tabs.MarkAction | src/js/tabs.js:231-233 | the tab's `markAction`: an inactive tab is untouched; on an active tab REMOVE_ACTION forgets the url and any other action is recorded, and the listeners are notified; no other field of the tab changes |
| Tabs.Tabs.MarkHeaders | src/js/tabs.js:234-236 | the tab's `markHeaders`: each name's count rises by its number of removed headers, and the listeners are notified; no other field of the tab changes |
| Headers.ShouldRemoveHeaderCases | src/js/reasons/headers.js:10-27 | matching ignores case: cookie and set-cookie are removable exactly off POST, referer, etag and if-none-match always, and other names never |
| Headers.CookieOnPostAndGet | src/js/reasons/headers.js:10-27 | a `Cookie` header survives a POST and is removed from a GET |
| Headers.KeptAndRemovedClassified | src/js/reasons/headers.js:32-40 | no kept header is removable, and every removed header is |
| Headers.KeptAndRemovedPartition | src/js/reasons/headers.js:32-40 | kept and removed headers together are the original headers, each exactly once, so their lengths add up |
| Headers.KeptAndRemovedAppend | src/js/reasons/headers.js:32-40 | the removal decides header by header, so a concatenation's result is the concatenation of the results |
| Headers.RemoveHeaders | src/js/reasons/headers.js:32-40 | the spliced array is the kept headers in their original order, and the result is the removed headers in their original order |
| Headers.RequestHandler | src/js/reasons/headers.js:46-54 | a `main_frame` request is let through; its tab stops counting headers, carries TAB_DEACTIVATE_HEADERS and notifies its listeners, and no other tab field changes; other requests are untouched |
| Headers.TabHeaderHandler | src/js/reasons/headers.js:42-63 | header requests get (NO_ACTION, shortCircuit), and other requests are untouched |
| Headers.HostHeaderEdit | src/js/reasons/headers.js:67-78 | checked on a marked host deletes it, unchecked marks the host with HEADER_DEACTIVATE_ON_HOST keeping its paths, otherwise nothing is written |
| Headers.HostHeaderUpdateEffect | src/js/reasons/headers.js:65-78 | the effect on the store: a host is marked, deleted or left as it was, and other hosts are never touched |
| Headers.MessageHandler | src/js/reasons/headers.js:65-87 | the store is updated as above; `headerCountsActive` becomes `checked`; the tab's TAB_DEACTIVATE_HEADERS action is set when unchecked and cleared when checked; the listeners are notified and no other tab field changes |
| Etag.EtagAction | src/js/reasons/etag.js:10 | an etag action carries its reason and the etag value |
| Etag.Decide | src/js/reasons/etag.js:13-39 | the verdict and write for each stored state: none, TRACKING, SAFE, UNKNOWN with an equal value, UNKNOWN with a different one, and any other reason |
| Etag.SetAction | src/js/reasons/etag.js:9-11 | stores the etag action under the URL's host and touches no other host |
| Etag.EtagHeader | src/js/reasons/etag.js:13-39 | the verdict is the decision's, the host gets the decided write, other hosts are untouched, and an UNKNOWN action always keeps its value |
| Etag.Run | src/js/reasons/etag.js:13-39 | every state reached by a run of `etagHeader` calls keeps its UNKNOWN actions' values |
| Etag.FinalStatesAbsorb | src/js/reasons/etag.js:17-22 | once SAFE or TRACKING is stored, later etag values change nothing |
| Etag.FinalVerdicts | src/js/reasons/etag.js:18-22 | SAFE always allows the header and TRACKING always removes it |
| Etag.FirstAndSecondSight | src/js/reasons/etag.js:23-38 | the first sight removes the header and stores UNKNOWN; an equal second value then allows it and stores SAFE; a different one removes it and stores TRACKING |
| Reasons.SetResponse | src/js/reasons.js:13-15 | the handler writes exactly `response` and `shortCircuit` |
| Reasons.Toggle | src/js/reasons.js:63-71 | a tab carrying TAB_DEACTIVATE becomes active with no action; any other tab becomes inactive carrying `tabDeactivate` |
| Reasons.SetActiveAsWritten | src/js/reasons.js:56-61 | as written: nothing when the flag already has the value, else exactly one toggle |
| Reasons.SetActiveAsWrittenMissesTarget | src/js/reasons.js:56-71 | an inactive tab whose action is TAB_DEACTIVATE_HEADERS stays inactive when asked to become active |
| Reasons.ToggleByFlag | src/js/reasons.js:63-71 | the corrected toggle flips the flag: TAB_DEACTIVATE is dropped on activation and set on deactivation |
| Reasons.SetActive | src/js/reasons.js:56-61 | corrected: the tab ends with the flag asked for, and nothing changes when it already had it |
| Reasons.SetActiveAgreesOnConsistent | src/js/reasons.js:56-71 | on tabs that are inactive exactly when they carry TAB_DEACTIVATE, the corrected and the written versions agree and keep that property |
| Reasons.ToggleTwice | src/js/reasons.js:63-71 | toggling a consistent tab twice restores it |
| Reasons.ToggleActiveState | src/js/reasons.js:63-71 | the tab object's activation after `toggleActiveState` is the toggle of the one before, and the listeners are notified exactly once |
| Reasons.SetActiveStateAsWritten | src/js/reasons.js:56-61 | the tab object's activation follows the as-written `setActiveState`, and the listeners are notified once exactly when the flag differs |
| Reasons.SetActiveState | src/js/reasons.js:56-71 | corrected: the tab ends with the flag asked for, agreeing with the written version on consistent tabs; listeners are notified only when the flag changes, and no other tab field changes |
| Reasons.UserHostDeactivateRequestHandler | src/js/reasons.js:73-77 | sets `shortCircuit` true and `response` NO_ACTION, and makes the tab inactive by the corrected `setActiveState`, which is the written one on consistent tabs; no other tab field than the activation and the notices changes |
| Reasons.HostToggle | src/js/reasons.js:82-96 | a domain carrying USER_HOST_DEACTIVATE loses it; any other domain gets it with the tab's href; paths are kept |
| Reasons.HostToggleTwice | src/js/reasons.js:82-96 | deactivating a host and activating it again restores a domain that had no action |
| Reasons.HostDeactivateUpdateEffect | src/js/reasons.js:79-96 | the host's action is added or removed, its paths are kept, and no other host changes |
| Reasons.OnUserHostDeactivate | src/js/reasons.js:79-98 | the store toggles as above, and the tab is made active exactly when the host was deactivated, by the corrected `setActiveState`, which is the written one on consistent tabs; no other tab field than the activation and the notices changes |
| Reasons.OnUserUrlDeactivate | src/js/reasons.js:49-54 | the url's path answers USER_URL_DEACTIVATE with the url as href, and other hosts are kept |
| Reasons.FingerprintAction | src/js/reasons.js:38-43 | the stored action carries FINGERPRINTING, the script's href, and the frame and tab urls |
| Reasons.OnFingerPrinting | src/js/reasons.js:30-47 | nothing happens, to the store or the tab, unless the tracker recorded the url as a script of that tab and frame; otherwise the tab marks the script as cancelled (notifying its listeners when active) and the path gets the action; no other tab field changes |
| Reasons.HeaderReasons | src/js/reasons/headers.js:89-102 | the header module's HEADER_DEACTIVATE_ON_HOST and TAB_DEACTIVATE_HEADERS reasons, with their handlers read as registrable request handlers (the source nests them under `props`) |
| Reasons.Route | src/js/reasons.js:141-145 | nothing for an entity without own action; a registered reason is dispatched; any other reason is an unregistered call |
| Reasons.RequestHandler.constructor | src/js/reasons.js:136-139 | an empty table |
| Reasons.RequestHandler.AddReason | src/js/reasons.js:147-150 | registers the request handler under the reason's name |
| Reasons.RequestHandler.HandleRequest | src/js/reasons.js:141-145 | an entity without own action changes nothing; otherwise the registered handler's effect: the set response, the user-host deactivation of the tab, the header-host handler's `main_frame` effect, or the tab-header handler's effect on header requests; every other case leaves the request's tab unchanged |
| Reasons.TabHandler.constructor | src/js/reasons.js:154-157 | an empty table |
| Reasons.TabHandler.AddReason | src/js/reasons.js:172-175 | registers the tab handler under the reason's name |
| Reasons.TabHandler.HandleUpdated | src/js/reasons.js:163-170 | nothing for an unknown tab or one without own action, else the registered handler's dispatch |
| Reasons.Handler.constructor | src/js/reasons.js:180-190 | both tables hold exactly the built-in reasons' handlers |
| Reasons.Handler.AddReason | src/js/reasons.js:192-199 | each handler the reason provides goes into its own table |
| Reasons.RequestTableFinds | src/js/reasons.js:147-150 | a name is in the table exactly when it was there or some registered reason provides it; otherwise the old entry is kept |
| Reasons.BuiltinTables | src/js/reasons.js:100-131 | registering the built-in reasons in order gives fingerprinting (CANCEL, false), user-url-deactivate (NO_ACTION, false) and tab-deactivate (NO_ACTION, true) |
| Reasons.AllReasonsRegistered | src/js/reasons.js:100-131 | a hypothetical configuration: if the header reasons were registered too, which no code of the source does, every reason name of the engine would have a request handler |
| Messages.ReportedDomain | src/js/messages.js:45-47 | the script's path is set to CANCEL with the context; a Domain's other paths are kept, and a host without a Domain gets one holding just that path |
| Messages.MessageDispatcher.constructor | src/js/messages.js:10-15 | the dispatch map holds the fingerprint handler only |
| Messages.MessageDispatcher.AddListener | src/js/messages.js:23-25 | adds or replaces only that type's handler |
| Messages.MessageDispatcher.ReportContext | src/js/messages.js:39-44 | the context carries FINGERPRINTING, the url and the sender's frame and tab urls |
| Messages.MessageDispatcher.OnFingerPrinting | src/js/messages.js:32-49 | the store is unchanged unless the tracker recorded the url as a script of the sender's tab and frame; otherwise the host's Domain gets the path cancelled, in the tree and in the persisted map, and no other host changes |
| Messages.MessageDispatcher.Dispatcher | src/js/messages.js:17-21 | runs the handler registered for the type; an unknown type leaves the store unchanged; the fingerprint handler has exactly the effect of `onFingerPrinting` |
| Psl.EntryOf | scripts/getpsl.py:40-45 | `*.` lines give `[name]`, `!` lines give `[name, 0]`, and other lines give `[name, 1]` |
| Psl.Rules | scripts/getpsl.py:37-39 | kept lines are not comments and contain a dot |
| Psl.SuffixesFollowRules | scripts/getpsl.py:35-45 | exactly one entry per kept line, in line order |
| Psl.NameLeqTotal | scripts/getpsl.py:47 | the string order is reflexive and total |
| Psl.Insert | scripts/getpsl.py:47 | insertion adds exactly one entry |
| Psl.InsertSorted | scripts/getpsl.py:47 | insertion keeps a sorted list sorted |
| Psl.InsertPermutes | scripts/getpsl.py:47 | insertion adds the entry and loses none |
| Psl.InsertNamed | scripts/getpsl.py:47 | insertion puts the entry ahead of those with the same name |
| Psl.SortByNameCorrect | scripts/getpsl.py:47 | `sorted` by name is sorted, a permutation, and stable |
| Psl.Convert | scripts/getpsl.py:34-47 | the output is sorted by name, has one entry per kept line, and keeps equal names in line order |

## Left out

- `Node` objects, their `label` field and `aggregate`'s callback: each tree node is identified by its label path from the root.
- Aliasing of Domain objects: `setPath` and `updateDomainPath` mutate the Domain they return. Here they return a new value that the caller stores.
- Etag state is its own map from hostname to Action. In the source it shares the domain store's entries through `setUrl`, so the model does not capture three interactions:
  - a host whose entry is a Domain matches none of the reason tests of `etagHeader`, answers undefined, and never enters the etag machine;
  - `updateDomainPath` on a host holding an etag Action replaces it with a fresh Domain, since an Action is not a Domain, and so erases the etag state;
  - a persisted etag Action comes back from `load` as a Domain without paths.
- `new URL(...)` and `punycode` are uninterpreted parameters. URL normalisation and IDNA encoding are not modelled.
- `Requests.Lower`: lower-cases ASCII letters only, not the full Unicode case mapping of `toLowerCase`.
- Badge and icon: `updateBadge`, `setIcon`, `setBadgeText` and the icon change of the TAB_DEACTIVATE tab handler are not modelled. Only the dispatch to that handler is kept.
- `Tabs.isThirdParty` is not part of this model: it calls a public-suffix module outside the core.
- `getFrame` is folded into the never-failing `GetFrameUrl` and `HasResource`.
- The frame's `urlObj` is not modelled.
- A parent frame's `children` map holds child ids, not the frame objects. Each child frame is also the tab's own frame under that id.
- The disk behind `DiskMap` and the asynchronous writes are not modelled. So are the read-modify-write races between concurrent awaited updates: each operation is atomic and sequential.
- `updateDomain`, `setDomainPath`, `deleteDomain` and `markResponse` are called by the handlers but not defined in the store or the tabs module. They are modelled on the hostname → Domain map and on the tab's actions.
- `markResponse(CANCEL, href, tabId)` becomes the tab's `markAction` with the action's response set to CANCEL.
- `hasAction` and `Counter` are not defined in the utilities module. `hasAction` is a reason test on an optional action, and `Counter` is a map from name to count.
- The constants module is not part of this model. Reason names are a datatype. `header_methods` and the message type strings are parameters.
- Listener callbacks: their effects are not modelled. Each `onChange` call that reaches a listener is recorded as a Notice holding the listener set and the data.
- Registering message handlers from the reason table with the message dispatcher is not modelled. The dispatcher's `addListener` is modelled.
- The JSON string formatting of `convert`'s output, and the fetching of the list, are not modelled.
- Store.DomainStore.constructor: `store.js:25` runs `attachMethods`, which binds a `tree.get` the suffix tree does not define (`store.js:42`). As written, construction throws a TypeError. The model builds the empty store the code evidently intends, with `get` read as `getItem`.
- Store.DomainStore.Get: `get` is bound to a nonexistent `tree.get` (`store.js:42`) and is read as the tree's `getItem`.
- Store.DomainStore.Set: `store.js:51` calls a nonexistent `tree.set`, read as the tree's `setItem`.
- Store.DomainStore.LoadWith: as written, the loop never runs, because `new DomainStore` at `store.js:29` throws first. Its `tree.set` at `store.js:32` is read as `setItem`.
- Store.DomainStore.LoadAsWritten: "as written" refers to the `new Domain(data)` rebuild at `store.js:32` only. The `tree.get`/`tree.set` slip is read by intent, since otherwise `load` never returns.
- Store.DomainStore.Load: reads `tree.get`/`tree.set` as `getItem`/`setItem`, like the other store members.
- Store.DomainStore.ReloadAsWritten: like `LoadAsWritten`, it is as written only in the rebuild of each value; the tree slip is read by intent.
- Store.DomainStore.Reload: the round trip presumes `tree.get`/`tree.set` are read as `getItem`/`setItem`.
- Store.DomainStore.Update: `{}` is modelled as a Domain with empty paths, no action and no instance flag. A JavaScript `{}` has no `paths` field at all, and `Object.assign` also copies a field that is present but `undefined`, which a `Patch` cannot express. No code of the engine calls `update`, so nothing else in the model depends on this.
- Tabs.Tabs.MarkAction: requires the tab to be tracked. For an unknown tab `getTab` answers undefined and the source fails with a TypeError, which is not modelled.
- Tabs.Tabs.MarkHeaders: requires the tab to be tracked, for the same reason.
- Headers.RequestHandler: requires a `main_frame` request's tab to be tracked. The source fails with a TypeError otherwise.
- Headers.MessageHandler: requires the tab to have a url. Otherwise `new URL(undefined)` fails, which is not modelled.
- Reasons.UserHostDeactivateRequestHandler: requires the request's tab to be tracked. The source fails with a TypeError otherwise.
- Reasons.UserHostDeactivateRequestHandler: uses the corrected `setActiveState` of the second finding below. On a tab that is inactive exactly when it carries TAB_DEACTIVATE, it agrees with the written one, and its contract says so. On other tabs the source leaves the activation `SetActiveAsWritten` gives.
- Reasons.OnUserHostDeactivate: requires the tab to have a url. Otherwise `new URL(undefined)` fails, which is not modelled.
- Reasons.OnUserHostDeactivate: uses the corrected `setActiveState`, with the same agreement and the same difference.
- Reasons.RequestHandler.HandleRequest: its USER_HOST_DEACTIVATE case uses the corrected `setActiveState`, with the same agreement and the same difference.
- Reasons.HeaderReasons: `headers.js` exports its reasons with the handlers nested under `props`, and neither `reasons.js` nor any other module registers them. The model reads them as reasons whose request handlers are the header handlers, and `Reasons.AllReasonsRegistered` assumes they are registered.
- Messages.MessageDispatcher.ReportContext: `messages.js:5` takes `Context` from the schemes module, which does not export one (`schemes.js:61`). So `new Context(...)` at `messages.js:44` throws on every accepted report. The model builds the context record the call evidently intends.
- Messages.MessageDispatcher.OnFingerPrinting: for the same reason, as written the accepted branch throws before `updateUrl` and the store is never written. The model performs the intended write.
- Messages.MessageDispatcher.Dispatcher: the callbacks registered with `addListener` are not modelled, so nothing is promised about the store after one runs.
- Known slips are modelled by their evident intent:
  - `messages.js:40` calls `getFrameUrl` with one argument; the model passes the tab and frame.
  - `messages.js:11` stores the fingerprint handler unbound; the model calls it on the dispatcher.
  - `store.js:42` binds `tree.get`, and `store.js:32` and `store.js:51` call `tree.set`, but the suffix tree defines only `getItem`, `setItem` and `getBranchData` (`suffixtree.js:47-83`). As written, `attachMethods` throws whenever a store is constructed, so `load` throws before its loop. The model calls `getItem` and `setItem`, as the eight `Store.DomainStore` lines above say.
  - `messages.js:44` constructs a `Context` that the schemes module does not export; the model builds the context record, as the two `Messages.MessageDispatcher` lines above say.
  - `new Action(reason, data)` is called positionally in `headers.js` and `etag.js`; it becomes an Action with that reason and data.
  - `tab.action = new Action(TAB_DEACTIVATE_HEADERS)`, likewise positional, becomes an Action carrying that reason.
- Etag.Decide: a stored UNKNOWN action without data is excluded, since the source fails on it and the model never writes one.

## Findings

| source | as written | input that shows it | evidently intended | confidence | as-written member | corrected member |
|---|---|---|---|---|---|---|
| src/js/store.js:32 | `load` rebuilds each value with `new Domain(data)`, which copies only `paths` and drops the domain-wide action | a persisted Domain whose action is USER_HOST_DEACTIVATE comes back without it, so the host is active again after a restart (this presumes the `tree.get`/`tree.set` slip of `store.js:32` and `store.js:42` is read as `getItem`/`setItem`, since as written `load` throws before its loop) | each persisted Domain comes back with its paths and its action | not executed | Store.LoadForgetsHostDeactivation | Store.DomainStore.Reload |
| src/js/reasons.js:56-71 | `setActiveState(tab, a)` calls `toggleActiveState` when the flag differs, and the toggle decides by whether the tab carries TAB_DEACTIVATE, not by the flag | an inactive tab whose action was replaced by TAB_DEACTIVATE_HEADERS, given `setActiveState(tab, true)`, stays inactive | the tab ends with the flag asked for | not executed | Reasons.SetActiveAsWrittenMissesTarget | Reasons.SetActive |

=== FILE: etag.dfy ===
/**
 * The etag state machine (src/js/reasons/etag.js). For each host the store
 * remembers one etag action: UNKNOWN with the first etag value seen, then
 * SAFE if the same value comes back or TRACKING if a different one does.
 * SAFE and TRACKING are final. The verdict says whether the etag header is
 * removed.
 *
 * The etag actions live in the domain store under the URL's hostname; here
 * they are a map of their own from hostname to Action.
 */
module Etag {
  import opened Wrappers
  import opened Schemes
  import opened Requests

  /** What `etagHeader` answers: true (remove the header), false (allow it), or undefined. */
  datatype Verdict = Remove | Allow | Undecided

  /** `new Action(reason, {etagValue})`: an etag action. */
  function EtagAction(reason: Reason, etagValue: string): (a: Action)
    ensures a.reason == reason && a.data == Some(EtagData(etagValue))
  {
    Action(reason, None, None, None, None, Some(EtagData(etagValue)))
  }

  /** The answer and the reason of the etag action to write (None when nothing is written). */
  datatype Step = Step(verdict: Verdict, write: Option<Reason>)

  /**
   * The decision of `etagHeader` for one host, from its stored action and the
   * etag value just seen. An UNKNOWN action always carries its etag value
   * (the source fails on one without).
   */
  function Decide(stored: Option<Action>, etagValue: string): (s: Step)
    requires stored.Some? && stored.value.reason == EtagUnknown ==> stored.value.data.Some?
    ensures stored.None? ==> s == Step(Remove, Some(EtagUnknown))
    ensures stored.Some? && stored.value.reason == EtagTracking ==> s == Step(Remove, None)
    ensures stored.Some? && stored.value.reason == EtagSafe ==> s == Step(Allow, None)
    ensures stored.Some? && stored.value.reason == EtagUnknown && stored.value.data.value.etagValue == etagValue ==>
      s == Step(Allow, Some(EtagSafe))
    ensures stored.Some? && stored.value.reason == EtagUnknown && stored.value.data.value.etagValue != etagValue ==>
      s == Step(Remove, Some(EtagTracking))
    ensures stored.Some? && stored.value.reason !in {EtagTracking, EtagSafe, EtagUnknown} ==> s == Step(Undecided, None)
  {
    match stored
    case None => Step(Remove, Some(EtagUnknown))
    case Some(action) =>
      if action.reason == EtagTracking then Step(Remove, None)
      else if action.reason == EtagSafe then Step(Allow, None)
      else if action.reason == EtagUnknown then
        if etagValue == action.data.value.etagValue then Step(Allow, Some(EtagSafe))
        else Step(Remove, Some(EtagTracking))
      else Step(Undecided, None)
  }

  /** Every action the machine writes is an etag action carrying its value. */
  predicate WellFormed(etags: map<string, Action>) {
    forall h :: h in etags && etags[h].reason == EtagUnknown ==> etags[h].data.Some?
  }

  /** `setAction`: stores the etag action under the URL's host and touches no other host. */
  function SetAction(etags: map<string, Action>, parse: UrlParser, href: string, reason: Reason, etagValue: string): (r: map<string, Action>)
    ensures Lookup(r, parse(href).hostname) == Some(EtagAction(reason, etagValue))
    ensures forall h :: h != parse(href).hostname ==> Lookup(r, h) == Lookup(etags, h)
  {
    etags[parse(href).hostname := EtagAction(reason, etagValue)]
  }

  /** The result of `etagHeader`: the verdict and the etag actions after the write. */
  datatype Outcome = Outcome(verdict: Verdict, etags: map<string, Action>)

  /**
   * `etagHeader`: looks up the action stored for the URL's host, decides,
   * and writes the new action (through `setAction`) under the same host.
   */
  function EtagHeader(etags: map<string, Action>, parse: UrlParser, href: string, etagValue: string): (o: Outcome)
    requires WellFormed(etags)
    ensures WellFormed(o.etags)
    ensures var host := parse(href).hostname;
      && o.verdict == Decide(Lookup(etags, host), etagValue).verdict
      && (forall h :: h != host ==> Lookup(o.etags, h) == Lookup(etags, h))
      && Lookup(o.etags, host) == (var w := Decide(Lookup(etags, host), etagValue).write;
           if w.Some? then Some(EtagAction(w.value, etagValue)) else Lookup(etags, host))
  {
    var host := parse(href).hostname;
    var step := Decide(Lookup(etags, host), etagValue);
    match step.write
    case None => Outcome(step.verdict, etags)
    case Some(reason) => Outcome(step.verdict, SetAction(etags, parse, href, reason, etagValue))
  }

  /** The etag actions after `etagHeader` has seen each value in turn for the same URL. */
  function Run(etags: map<string, Action>, parse: UrlParser, href: string, values: seq<string>): (r: map<string, Action>)
    requires WellFormed(etags)
    ensures WellFormed(r)
    decreases |values|
  {
    if values == [] then etags
    else Run(EtagHeader(etags, parse, href, values[0]).etags, parse, href, values[1..])
  }

  /** SAFE and TRACKING are final: once stored, no etag value seen later changes anything. */
  lemma {:induction false} FinalStatesAbsorb(etags: map<string, Action>, parse: UrlParser, href: string, values: seq<string>)
    requires WellFormed(etags)
    requires HasAction(Lookup(etags, parse(href).hostname), EtagSafe) || HasAction(Lookup(etags, parse(href).hostname), EtagTracking)
    ensures Run(etags, parse, href, values) == etags
    decreases |values|
  {
    if values != [] {
      assert EtagHeader(etags, parse, href, values[0]).etags == etags;
      FinalStatesAbsorb(etags, parse, href, values[1..]);
    }
  }

  /** Under a final state the verdict never changes: SAFE always allows, TRACKING always removes. */
  lemma FinalVerdicts(etags: map<string, Action>, parse: UrlParser, href: string, etagValue: string)
    requires WellFormed(etags)
    ensures HasAction(Lookup(etags, parse(href).hostname), EtagSafe) ==> EtagHeader(etags, parse, href, etagValue).verdict == Allow
    ensures HasAction(Lookup(etags, parse(href).hostname), EtagTracking) ==> EtagHeader(etags, parse, href, etagValue).verdict == Remove
  {
  }

  /**
   * A host seen for the first time: its etag header is removed and UNKNOWN is
   * stored. The same value next time makes it SAFE and the header is allowed;
   * a different value makes it TRACKING and the header is removed.
   */
  lemma FirstAndSecondSight(etags: map<string, Action>, parse: UrlParser, href: string, first: string, second: string)
    requires WellFormed(etags) && parse(href).hostname !in etags
    ensures var one := EtagHeader(etags, parse, href, first);
      var two := EtagHeader(one.etags, parse, href, second);
      var host := parse(href).hostname;
      && one.verdict == Remove && one.etags == etags[host := EtagAction(EtagUnknown, first)]
      && (second == first ==> two.verdict == Allow && two.etags == etags[host := EtagAction(EtagSafe, second)])
      && (second != first ==> two.verdict == Remove && two.etags == etags[host := EtagAction(EtagTracking, second)])
  {
    var host := parse(href).hostname;
    var one := EtagHeader(etags, parse, href, first);
    assert Lookup(one.etags, host) == Some(EtagAction(EtagUnknown, first));
  }
}

=== FILE: headers.dfy ===
/**
 * Header stripping (src/js/reasons/headers.js): which request headers are
 * removed, the in-place removal loop, and the two reasons that switch header
 * stripping off for a host or for a tab.
 */
module Headers {
  import opened Wrappers
  import opened Schemes
  import opened Requests
  import opened Store
  import opened Tabs

  /** When a listed header is removed: unless the request is a POST, or always. */
  datatype Rule = NotPost | Always

  /** `badHeaders`: lower-cased header name to its removal rule. */
  const BadHeaders: map<string, Rule> := map[
    "cookie" := NotPost,
    "set-cookie" := NotPost,
    "referer" := Always,
    "etag" := Always,
    "if-none-match" := Always]

  /** `shouldRemoveHeader`: the rule for the header's lower-cased name, if it has one. */
  function ShouldRemoveHeader(d: RequestDetails, h: Header): bool {
    var name := Lower(h.name);
    if name in BadHeaders then
      match BadHeaders[name]
      case NotPost => d.httpMethod != "POST"
      case Always => true
    else false
  }

  /**
   * Case-insensitive matching: cookies are removed exactly when the request is
   * not a POST, referer and the etag headers always, everything else never.
   */
  lemma ShouldRemoveHeaderCases(d: RequestDetails, h: Header)
    ensures ShouldRemoveHeader(d, h) <==>
      ((Lower(h.name) == "cookie" || Lower(h.name) == "set-cookie") && d.httpMethod != "POST") ||
      Lower(h.name) == "referer" || Lower(h.name) == "etag" || Lower(h.name) == "if-none-match"
    ensures forall other: Header :: Lower(other.name) == Lower(h.name) ==> ShouldRemoveHeader(d, other) == ShouldRemoveHeader(d, h)
  {
  }

  /** A `Cookie` header survives a POST and is removed from a GET. */
  lemma CookieOnPostAndGet(post: RequestDetails, get: RequestDetails, value: string)
    requires post.httpMethod == "POST" && get.httpMethod == "GET"
    ensures !ShouldRemoveHeader(post, Header("Cookie", value))
    ensures ShouldRemoveHeader(get, Header("Cookie", value))
  {
    assert Lower("Cookie") == "cookie";
  }

  /** The headers that survive removal, in their original order. */
  function Kept(d: RequestDetails, hs: seq<Header>): seq<Header> {
    if hs == [] then []
    else
      var last := hs[|hs| - 1];
      Kept(d, hs[..|hs| - 1]) + if ShouldRemoveHeader(d, last) then [] else [last]
  }

  /** The headers removal takes out, in their original order. */
  function Removed(d: RequestDetails, hs: seq<Header>): seq<Header> {
    if hs == [] then []
    else
      var last := hs[|hs| - 1];
      Removed(d, hs[..|hs| - 1]) + if ShouldRemoveHeader(d, last) then [last] else []
  }

  /** No surviving header is removable, and every removed header is. */
  lemma {:induction false} KeptAndRemovedClassified(d: RequestDetails, hs: seq<Header>)
    ensures forall h :: h in Kept(d, hs) ==> !ShouldRemoveHeader(d, h)
    ensures forall h :: h in Removed(d, hs) ==> ShouldRemoveHeader(d, h)
  {
    if hs != [] {
      KeptAndRemovedClassified(d, hs[..|hs| - 1]);
    }
  }

  /** Kept and removed headers together are the original headers, each exactly once. */
  lemma {:induction false} KeptAndRemovedPartition(d: RequestDetails, hs: seq<Header>)
    ensures |Kept(d, hs)| + |Removed(d, hs)| == |hs|
    ensures multiset(Kept(d, hs)) + multiset(Removed(d, hs)) == multiset(hs)
  {
    if hs != [] {
      var init, last := hs[..|hs| - 1], hs[|hs| - 1];
      KeptAndRemovedPartition(d, init);
      assert hs == init + [last];
      if ShouldRemoveHeader(d, last) {
        assert Kept(d, hs) == Kept(d, init) && Removed(d, hs) == Removed(d, init) + [last];
      } else {
        assert Kept(d, hs) == Kept(d, init) + [last] && Removed(d, hs) == Removed(d, init);
      }
    }
  }

  /** Removal works header by header: the result for a concatenation is the concatenation of the results. */
  lemma {:induction false} KeptAndRemovedAppend(d: RequestDetails, a: seq<Header>, b: seq<Header>)
    ensures Kept(d, a + b) == Kept(d, a) + Kept(d, b)
    ensures Removed(d, a + b) == Removed(d, a) + Removed(d, b)
  {
    if b != [] {
      var init := b[..|b| - 1];
      KeptAndRemovedAppend(d, a, init);
      assert (a + b)[..|a + b| - 1] == a + init;
    } else {
      assert a + b == a;
    }
  }

  /** Taking one more header of the original into account. */
  lemma ScanStep(d: RequestDetails, original: seq<Header>, j: nat)
    requires j < |original|
    ensures Kept(d, original[..j + 1]) == Kept(d, original[..j]) + if ShouldRemoveHeader(d, original[j]) then [] else [original[j]]
    ensures Removed(d, original[..j + 1]) == Removed(d, original[..j]) + if ShouldRemoveHeader(d, original[j]) then [original[j]] else []
  {
    assert original[..j + 1][..j] == original[..j];
  }

  /** The request's header array, which `removeHeaders` splices in place. */
  class HeaderList {
    var items: seq<Header>

    constructor (items: seq<Header>)
      ensures this.items == items
    {
      this.items := items;
    }
  }

  /**
   * `removeHeaders`: walks the array, splicing out each removable header at
   * the current position before moving on, and returns the spliced-out headers.
   */
  method RemoveHeaders(d: RequestDetails, headers: HeaderList) returns (removed: seq<Header>)
    modifies headers
    ensures headers.items == Kept(d, old(headers.items))
    ensures removed == Removed(d, old(headers.items))
  {
    ghost var original := headers.items;
    ghost var j := 0;
    removed := [];
    var i := 0;
    while i < |headers.items|
      invariant 0 <= j <= |original|
      invariant i <= |headers.items| ==> headers.items[..i] == Kept(d, original[..j]) && headers.items[i..] == original[j..]
      invariant i > |headers.items| ==> i == |headers.items| + 1 && headers.items == Kept(d, original) && j == |original|
      invariant removed == Removed(d, original[..j])
      decreases |headers.items| + 1 - i
    {
      while i < |headers.items| && ShouldRemoveHeader(d, headers.items[i])
        invariant 0 <= i <= |headers.items| && 0 <= j <= |original|
        invariant headers.items[..i] == Kept(d, original[..j]) && headers.items[i..] == original[j..]
        invariant removed == Removed(d, original[..j])
        decreases |headers.items| - i
      {
        SpliceStep(d, original, j, headers.items, i);
        removed := removed + [headers.items[i]];
        headers.items := headers.items[..i] + headers.items[i + 1..];
        j := j + 1;
      }
      if i < |headers.items| {
        SpliceStep(d, original, j, headers.items, i);
        j := j + 1;
      } else {
        assert original[..j] == original by {
          assert original[j..] == headers.items[i..] == [];
        }
      }
      i := i + 1;
    }
    if i <= |headers.items| {
      assert original[..j] == original by {
        assert original[j..] == headers.items[i..] == [];
      }
      assert headers.items[..i] == headers.items;
    }
    assert original[..j] == original;
  }

  /** One step of the removal loop: the header at the current position is the next original header. */
  lemma SpliceStep(d: RequestDetails, original: seq<Header>, j: nat, items: seq<Header>, i: nat)
    requires i < |items| && j <= |original|
    requires items[..i] == Kept(d, original[..j]) && items[i..] == original[j..]
    ensures j < |original| && original[j] == items[i]
    ensures ShouldRemoveHeader(d, items[i]) ==>
      var spliced := items[..i] + items[i + 1..];
      spliced[..i] == Kept(d, original[..j + 1]) && spliced[i..] == original[j + 1..] &&
      Removed(d, original[..j + 1]) == Removed(d, original[..j]) + [items[i]]
    ensures !ShouldRemoveHeader(d, items[i]) ==>
      items[..i + 1] == Kept(d, original[..j + 1]) && items[i + 1..] == original[j + 1..] &&
      Removed(d, original[..j + 1]) == Removed(d, original[..j])
  {
    assert items[i..][0] == original[j..][0];
    ScanStep(d, original, j);
    var spliced := items[..i] + items[i + 1..];
    assert spliced[..i] == items[..i];
    assert spliced[i..] == items[i + 1..] == original[j + 1..] by {
      assert items[i + 1..] == items[i..][1..];
    }
    assert items[..i + 1] == items[..i] + [items[i]];
  }

  /** `isHeaderRequest`: the request's type is one of the header request types. */
  predicate IsHeaderRequest(d: RequestDetails, headerMethods: set<string>) {
    d.requestType.Some? && d.requestType.value in headerMethods
  }

  /**
   * `requestHandler` of HEADER_DEACTIVATE_ON_HOST: a `main_frame` request is
   * let through unconditionally, and its tab stops counting headers and
   * carries the TAB_DEACTIVATE_HEADERS action; other requests are untouched.
   */
  method RequestHandler(tabs: Tabs, details: Details)
    requires details.request.resourceType == "main_frame" ==> details.request.tabId in tabs.data
    modifies details, if details.request.resourceType == "main_frame" then {tabs.data[details.request.tabId]} else {}
    ensures details.request.resourceType != "main_frame" ==> unchanged(details)
    ensures details.request.resourceType == "main_frame" ==>
      var tab := tabs.data[details.request.tabId];
      && details.response == Some(NoAction) && details.shortCircuit == Some(true)
      && tab.action == Some(ReasonOnly(TabDeactivateHeaders)) && !tab.headerCountsActive
      && tab.active == old(tab.active) && tab.actions == old(tab.actions) && tab.frames == old(tab.frames)
      && tab.notices == old(tab.notices) + (if tab.listeners == {} then [] else [Notice(tab.listeners, tab.GetData())])
      && tab.State() == old(tab.State()).(action := tab.action, headerCountsActive := false, notices := tab.notices)
  {
    if details.request.resourceType == "main_frame" {
      details.shortCircuit := Some(true);
      details.response := Some(NoAction);
      var tab := tabs.data[details.request.tabId];
      tab.action := Some(ReasonOnly(TabDeactivateHeaders));
      tab.headerCountsActive := false;
      tab.OnChange();
    }
  }

  /** `tabHeaderHandler`: header requests are let through unconditionally; others are untouched. */
  method TabHeaderHandler(details: Details, headerMethods: set<string>)
    modifies details
    ensures IsHeaderRequest(details.request, headerMethods) ==>
      details.response == Some(NoAction) && details.shortCircuit == Some(true)
    ensures !IsHeaderRequest(details.request, headerMethods) ==> unchanged(details)
  {
    if IsHeaderRequest(details.request, headerMethods) {
      details.response := Some(NoAction);
      details.shortCircuit := Some(true);
    }
  }

  /**
   * The mutator `messageHandler` passes to `updateDomain`: with the box
   * checked and the host deactivated, the domain is deleted; with it
   * unchecked, the domain gets the HEADER_DEACTIVATE_ON_HOST action; else
   * nothing is written.
   */
  function HostHeaderEdit(href: string, checked: bool, domain: Domain): (e: Edit)
    ensures checked && HasAction(domain.action, HeaderDeactivateOnHost) <==> e.Delete?
    ensures !checked <==> e.Write?
    ensures e.Write? ==> (e.domain.paths == domain.paths && e.domain.isInstance == domain.isInstance &&
      e.domain.action == Some(Action(HeaderDeactivateOnHost, None, Some(href), None, None, None)))
  {
    if HasAction(domain.action, HeaderDeactivateOnHost) && checked then Delete
    else if !checked then Write(domain.(action := Some(Action(HeaderDeactivateOnHost, None, Some(href), None, None, None))))
    else Keep
  }

  /** The store side of `messageHandler`, for the tab's url. */
  function HostHeaderUpdate(view: map<string, Domain>, parse: UrlParser, tabUrl: string, checked: bool): map<string, Domain> {
    var href := parse(tabUrl).href;
    UpdateDomain(view, parse, href, d => HostHeaderEdit(href, checked, d))
  }

  /**
   * Unchecking marks the host with HEADER_DEACTIVATE_ON_HOST; checking a host
   * so marked deletes its record; checking an unmarked host changes nothing;
   * other hosts are never touched.
   */
  lemma HostHeaderUpdateEffect(view: map<string, Domain>, parse: UrlParser, tabUrl: string, checked: bool)
    ensures var host := parse(parse(tabUrl).href).hostname;
      var r := HostHeaderUpdate(view, parse, tabUrl, checked);
      var before := Lookup(view, host).GetOr(NewDomain());
      && (!checked ==> host in r && HasAction(r[host].action, HeaderDeactivateOnHost) && r[host].paths == before.paths)
      && (checked && HasAction(before.action, HeaderDeactivateOnHost) ==> host !in r)
      && (checked && !HasAction(before.action, HeaderDeactivateOnHost) ==> r == view)
      && (forall h :: h != host ==> Lookup(r, h) == Lookup(view, h))
  {
    var href := parse(tabUrl).href;
    var host := parse(href).hostname;
    var before := Lookup(view, host).GetOr(NewDomain());
    var e := HostHeaderEdit(href, checked, before);
    assert (d => HostHeaderEdit(href, checked, d))(before) == e;
  }

  /**
   * `messageHandler`: updates the host's record as above, sets the tab's
   * header counting to `checked`, and sets or clears the tab's
   * TAB_DEACTIVATE_HEADERS action. The source fails for a tab without url.
   */
  method MessageHandler(tabs: Tabs, view: map<string, Domain>, parse: UrlParser, tabId: int, checked: bool)
    returns (newView: map<string, Domain>)
    requires tabs.GetTabUrl(tabId).Some?
    modifies tabs.data[tabId]
    ensures newView == HostHeaderUpdate(view, parse, old(tabs.GetTabUrl(tabId)).value, checked)
    ensures tabs.data[tabId].headerCountsActive == checked
    ensures !checked ==> tabs.data[tabId].action == Some(ReasonOnly(TabDeactivateHeaders))
    ensures checked && HasAction(old(tabs.data[tabId].action), TabDeactivateHeaders) ==> tabs.data[tabId].action.None?
    ensures checked && !HasAction(old(tabs.data[tabId].action), TabDeactivateHeaders) ==>
      tabs.data[tabId].action == old(tabs.data[tabId].action)
    ensures tabs.data[tabId].active == old(tabs.data[tabId].active) && tabs.data[tabId].frames == old(tabs.data[tabId].frames)
    ensures
      var tab := tabs.data[tabId];
      tab.notices == old(tab.notices) + if tab.listeners == {} then [] else [Notice(tab.listeners, tab.GetData())]
    ensures
      var tab := tabs.data[tabId];
      tab.State() == old(tab.State()).(action := tab.action, headerCountsActive := checked, notices := tab.notices)
  {
    var tabUrl := tabs.GetTabUrl(tabId).value;
    newView := HostHeaderUpdate(view, parse, tabUrl, checked);
    var tab := tabs.data[tabId];
    tab.headerCountsActive := checked;
    if !checked {
      tab.action := Some(ReasonOnly(TabDeactivateHeaders));
    } else if HasAction(tab.action, TabDeactivateHeaders) {
      tab.action := None;
    }
    tab.OnChange();
  }
}

=== FILE: messages.dfy ===
/**
 * The message dispatcher (src/js/messages.js): content-script messages are
 * routed by type to a handler; the built-in handler records a fingerprinting
 * script as a cancelled path of its host in the domain store.
 */
module Messages {
  import opened Wrappers
  import opened Schemes
  import opened Requests
  import opened Store
  import opened Tabs

  /** A registered handler: the built-in fingerprint report, or a listener added later, by identity. */
  datatype Handler = FingerprintHandler | Callback(id: nat)

  /** A message from a content script: its type and the url it reports. */
  datatype Message = Message(messageType: string, url: string)

  /** Where a message came from: the sender's tab and frame. */
  datatype Sender = Sender(tabId: int, frameId: int)

  /** What `dispatcher` did with a message. */
  datatype Delivery = Ignored | Ran(handler: Handler)

  /** The path record a fingerprint report writes: the script's path cancelled, with the report's context. */
  function ReportedDomain(domain: Option<Domain>, pathname: string, ctx: Context): (r: Domain)
    ensures pathname in r.paths && GetResponse(r, pathname) == Bare(Cancel) && r.paths[pathname].context == Some(ctx)
    ensures domain.Some? && domain.value.isInstance ==>
      r.paths.Keys == domain.value.paths.Keys + {pathname} && r.action == domain.value.action &&
      forall p :: p in domain.value.paths && p != pathname ==> r.paths[p] == domain.value.paths[p]
    ensures domain.None? ==> r.paths.Keys == {pathname} && r.action.None?
  {
    UpdateDomainPath(domain, pathname, Bare(Cancel), Some(ctx))
  }

  class MessageDispatcher {
    const tabs: Tabs
    const store: DomainStore
    /** Message type to handler. */
    var dispatchMap: map<string, Handler>

    /** `new MessageDispatcher(tabs, store)`: only the fingerprint report is registered, under its type. */
    constructor (tabs: Tabs, store: DomainStore, fingerprinting: string)
      ensures this.tabs == tabs && this.store == store
      ensures dispatchMap == map[fingerprinting := FingerprintHandler]
    {
      this.tabs := tabs;
      this.store := store;
      dispatchMap := map[fingerprinting := FingerprintHandler];
    }

    /** `addListener(type, callback)`: registers or replaces the handler of that type only. */
    method AddListener(messageType: string, callback: nat)
      modifies this`dispatchMap
      ensures dispatchMap == old(dispatchMap)[messageType := Callback(callback)]
      ensures forall t :: t != messageType ==> Lookup(dispatchMap, t) == Lookup(old(dispatchMap), t)
    {
      dispatchMap := dispatchMap[messageType := Callback(callback)];
    }

    /** The context a fingerprint report stores. */
    function ReportContext(message: Message, sender: Sender): (ctx: Context)
      reads tabs, tabs.data.Values
      ensures ctx.reason == Fingerprinting && ctx.url == message.url
      ensures ctx.frameUrl == tabs.GetFrameUrl(sender.tabId, sender.frameId) && ctx.tabUrl == tabs.GetTabUrl(sender.tabId)
    {
      Context(Fingerprinting, message.url, tabs.GetFrameUrl(sender.tabId, sender.frameId), tabs.GetTabUrl(sender.tabId))
    }

    /**
     * `onFingerPrinting`: only a url the tab tracker recorded as a script of
     * the sender's tab and frame is written: its host's domain gets the url's
     * path cancelled, keeping the domain's other paths.
     */
    method OnFingerPrinting(message: Message, sender: Sender)
      requires store.Valid()
      modifies store, store.tree
      ensures store.Valid() && (old(store.Synced()) ==> store.Synced())
      ensures !tabs.HasResource(sender.tabId, sender.frameId, message.url, "script") ==>
        store.diskMap == old(store.diskMap) && forall k :: store.Get(k) == old(store.Get(k))
      ensures tabs.HasResource(sender.tabId, sender.frameId, message.url, "script") ==>
        var host := store.parse(message.url).hostname;
        var written := ReportedDomain(old(store.Get(host)), store.parse(message.url).pathname, ReportContext(message, sender));
        && store.diskMap == old(store.diskMap)[host := written]
        && store.Get(host) == Some(written)
        && forall k :: k != host ==> store.Get(k) == old(store.Get(k))
    {
      if tabs.HasResource(sender.tabId, sender.frameId, message.url, "script") {
        var ctx := ReportContext(message, sender);
        var pathname := store.parse(message.url).pathname;
        store.UpdateUrl(message.url, d => ReportedDomain(d, pathname, ctx));
      }
    }

    /**
     * `dispatcher`: runs the handler registered for the message's type and
     * ignores other types. What a callback registered with `addListener` does
     * is not part of this model.
     */
    method Dispatcher(message: Message, sender: Sender) returns (delivery: Delivery)
      requires store.Valid()
      modifies store, store.tree
      ensures store.Valid() && (old(store.Synced()) ==> store.Synced())
      ensures delivery == if message.messageType in dispatchMap then Ran(dispatchMap[message.messageType]) else Ignored
      ensures delivery == Ignored ==> store.diskMap == old(store.diskMap) && forall k :: store.Get(k) == old(store.Get(k))
      ensures delivery == Ran(FingerprintHandler) && !tabs.HasResource(sender.tabId, sender.frameId, message.url, "script") ==>
        store.diskMap == old(store.diskMap) && forall k :: store.Get(k) == old(store.Get(k))
      ensures delivery == Ran(FingerprintHandler) && tabs.HasResource(sender.tabId, sender.frameId, message.url, "script") ==>
        var host := store.parse(message.url).hostname;
        var written := ReportedDomain(old(store.Get(host)), store.parse(message.url).pathname, ReportContext(message, sender));
        && store.diskMap == old(store.diskMap)[host := written]
        && store.Get(host) == Some(written)
        && forall k :: k != host ==> store.Get(k) == old(store.Get(k))
    {
      if message.messageType !in dispatchMap {
        return Ignored;
      }
      var handler := dispatchMap[message.messageType];
      if handler == FingerprintHandler {
        OnFingerPrinting(message, sender);
      }
      return Ran(handler);
    }
  }
}

=== FILE: psl.dfy ===
/**
 * The public suffix list converter (`convert` in scripts/getpsl.py): each
 * rule line of the Public Suffix List becomes an entry naming the suffix and
 * its kind, and the entries are sorted by name. Comment lines (starting with
 * `//`) and lines without a dot are skipped; a `*.` line is a wildcard rule,
 * a `!` line an exception rule. IDNA encoding (`punycode`) is a parameter.
 */
module Psl {
  import opened Wrappers

  /**
   * One output entry: `[name]` for a wildcard rule (no flag), `[name, 0]` for
   * an exception rule, `[name, 1]` for a normal rule.
   */
  datatype Entry = Entry(name: string, flag: Option<int>)

  predicate StartsWith(s: string, prefix: string) {
    |prefix| <= |s| && s[..|prefix|] == prefix
  }

  /** Whether a line is kept: not a comment, and containing a dot. */
  predicate IsRule(line: string) {
    !StartsWith(line, "//") && '.' in line
  }

  /** The entry a kept line becomes. */
  function EntryOf(line: string, punycode: string -> string): (e: Entry)
    requires IsRule(line)
    ensures StartsWith(line, "*.") ==> e == Entry(punycode(line[2..]), None)
    ensures !StartsWith(line, "*.") && StartsWith(line, "!") ==> e == Entry(punycode(line[1..]), Some(0))
    ensures !StartsWith(line, "*.") && !StartsWith(line, "!") ==> e == Entry(punycode(line), Some(1))
  {
    if StartsWith(line, "*.") then Entry(punycode(line[2..]), None)
    else if StartsWith(line, "!") then Entry(punycode(line[1..]), Some(0))
    else Entry(punycode(line), Some(1))
  }

  /** The lines `convert` keeps, in their order. */
  function Rules(lines: seq<string>): (r: seq<string>)
    ensures forall l :: l in r ==> IsRule(l) && l in lines
  {
    if lines == [] then []
    else Rules(lines[..|lines| - 1]) + if IsRule(lines[|lines| - 1]) then [lines[|lines| - 1]] else []
  }

  /** The `suffixes` list the loop of `convert` builds, before sorting. */
  function Suffixes(lines: seq<string>, punycode: string -> string): seq<Entry> {
    if lines == [] then []
    else
      var last := lines[|lines| - 1];
      Suffixes(lines[..|lines| - 1], punycode) + if IsRule(last) then [EntryOf(last, punycode)] else []
  }

  /** Exactly one entry per kept line, in the lines' order. */
  lemma {:induction false} SuffixesFollowRules(lines: seq<string>, punycode: string -> string)
    ensures |Suffixes(lines, punycode)| == |Rules(lines)|
    ensures forall k :: 0 <= k < |Rules(lines)| ==> Suffixes(lines, punycode)[k] == EntryOf(Rules(lines)[k], punycode)
  {
    if lines != [] {
      SuffixesFollowRules(lines[..|lines| - 1], punycode);
    }
  }

  /** Python's string order: code point by code point, a proper prefix first. */
  predicate NameLeq(a: string, b: string)
    decreases |a|
  {
    a == [] || (b != [] && (a[0] < b[0] || (a[0] == b[0] && NameLeq(a[1..], b[1..]))))
  }

  /** The order is reflexive and total. */
  lemma {:induction false} NameLeqTotal(a: string, b: string)
    ensures NameLeq(a, a)
    ensures NameLeq(a, b) || NameLeq(b, a)
    decreases |a|
  {
    if a != [] {
      NameLeqTotal(a[1..], if b == [] then b else b[1..]);
    }
  }

  /** Adjacent entries are in name order. */
  predicate SortedByName(s: seq<Entry>) {
    forall i :: 0 <= i < |s| - 1 ==> NameLeq(s[i].name, s[i + 1].name)
  }

  /** Places an entry before the first entry whose name is not smaller. */
  function Insert(x: Entry, s: seq<Entry>): (r: seq<Entry>)
    ensures |r| == |s| + 1
    ensures r[0] == x || (s != [] && r[0] == s[0])
  {
    if s == [] || NameLeq(x.name, s[0].name) then [x] + s
    else [s[0]] + Insert(x, s[1..])
  }

  /** `sorted(suffixes, key=lambda x: x[0])`: a stable sort by name. */
  function SortByName(s: seq<Entry>): seq<Entry> {
    if s == [] then [] else Insert(s[0], SortByName(s[1..]))
  }

  lemma {:induction false} InsertSorted(x: Entry, s: seq<Entry>)
    requires SortedByName(s)
    ensures SortedByName(Insert(x, s))
  {
    if s != [] && !NameLeq(x.name, s[0].name) {
      NameLeqTotal(x.name, s[0].name);
      InsertSorted(x, s[1..]);
    }
  }

  lemma {:induction false} InsertPermutes(x: Entry, s: seq<Entry>)
    ensures multiset(Insert(x, s)) == multiset(s) + multiset{x}
  {
    if s != [] && !NameLeq(x.name, s[0].name) {
      InsertPermutes(x, s[1..]);
      assert s == [s[0]] + s[1..];
    }
  }

  /** The entries with a given name, in order. */
  function Named(s: seq<Entry>, name: string): (r: seq<Entry>)
    ensures |r| <= |s|
  {
    if s == [] then []
    else (if s[0].name == name then [s[0]] else []) + Named(s[1..], name)
  }

  /** Inserting puts the entry ahead of every entry with its name, and moves no other entry of any name. */
  lemma {:induction false} InsertNamed(x: Entry, s: seq<Entry>, name: string)
    ensures Named(Insert(x, s), name) == (if x.name == name then [x] else []) + Named(s, name)
  {
    if s != [] && !NameLeq(x.name, s[0].name) {
      NameLeqTotal(x.name, s[0].name);
      InsertNamed(x, s[1..], name);
      assert s[0].name != x.name;
    }
  }

  /** The sort is sorted, a permutation, and stable: entries with equal names keep their order. */
  lemma {:induction false} SortByNameCorrect(s: seq<Entry>)
    ensures SortedByName(SortByName(s))
    ensures multiset(SortByName(s)) == multiset(s)
    ensures forall name :: Named(SortByName(s), name) == Named(s, name)
  {
    if s != [] {
      SortByNameCorrect(s[1..]);
      InsertSorted(s[0], SortByName(s[1..]));
      InsertPermutes(s[0], SortByName(s[1..]));
      assert s == [s[0]] + s[1..];
      forall name ensures Named(SortByName(s), name) == Named(s, name) {
        InsertNamed(s[0], SortByName(s[1..]), name);
      }
    }
  }

  /**
   * `convert`: one pass over the lines building the suffix entries, then the
   * sort. The output is sorted by name and holds exactly the entries of the
   * kept lines, entries of equal name in their line order.
   */
  method Convert(lines: seq<string>, punycode: string -> string) returns (entries: seq<Entry>)
    ensures entries == SortByName(Suffixes(lines, punycode))
    ensures SortedByName(entries)
    ensures multiset(entries) == multiset(Suffixes(lines, punycode))
    ensures |entries| == |Rules(lines)|
    ensures forall name :: Named(entries, name) == Named(Suffixes(lines, punycode), name)
  {
    var suffixes: seq<Entry> := [];
    var i := 0;
    while i < |lines|
      invariant 0 <= i <= |lines|
      invariant suffixes == Suffixes(lines[..i], punycode)
    {
      assert lines[..i + 1][..i] == lines[..i];
      var line := lines[i];
      if StartsWith(line, "//") || '.' !in line {
        i := i + 1;
        continue;
      }
      if StartsWith(line, "*.") {
        suffixes := suffixes + [Entry(punycode(line[2..]), None)];
      } else if StartsWith(line, "!") {
        suffixes := suffixes + [Entry(punycode(line[1..]), Some(0))];
      } else {
        suffixes := suffixes + [Entry(punycode(line), Some(1))];
      }
      i := i + 1;
    }
    assert lines[..i] == lines;
    entries := SortByName(suffixes);
    SortByNameCorrect(suffixes);
    SuffixesFollowRules(lines, punycode);
    assert |multiset(entries)| == |multiset(suffixes)|;
  }
}

=== FILE: reasons.dfy ===
/**
 * The reasons (src/js/reasons.js): what each stored action makes the engine
 * do with a request, the handlers of the user's messages, and the tables that
 * dispatch on an action's reason.
 */
module Reasons {
  import opened Wrappers
  import opened Schemes
  import opened Requests
  import opened Store
  import opened Tabs
  import Headers

  /** A handler made by `setResponse(response, shortCircuit)`: writes exactly those two fields. */
  method SetResponse(details: Details, response: Response, shortCircuit: bool)
    modifies details
    ensures details.response == Some(response) && details.shortCircuit == Some(shortCircuit)
  {
    details.response := Some(response);
    details.shortCircuit := Some(shortCircuit);
  }

  // -----------------------------------------------------------------------
  // The tab's activation: its `active` flag and its own `action`.
  // -----------------------------------------------------------------------

  /** The part of a tab the activation toggles read and write. */
  datatype Activation = Activation(active: bool, action: Option<Action>)

  /** `tabDeactivate`: the action an inactive tab carries. */
  const TabDeactivateAction: Action := ReasonOnly(TabDeactivate)

  /**
   * `toggleActiveState`: a tab carrying TAB_DEACTIVATE becomes active and
   * loses its action; any other tab becomes inactive and carries TAB_DEACTIVATE.
   */
  function Toggle(s: Activation): (r: Activation)
    ensures HasAction(s.action, TabDeactivate) ==> r.active && r.action.None?
    ensures !HasAction(s.action, TabDeactivate) ==> !r.active && r.action == Some(TabDeactivateAction)
  {
    if HasAction(s.action, TabDeactivate) then Activation(true, None)
    else Activation(false, Some(TabDeactivateAction))
  }

  /**
   * `setActiveState(tab, active)` as written: nothing when the flag already
   * has the value, else one toggle, which decides by the action, not the flag.
   */
  function SetActiveAsWritten(s: Activation, a: bool): (r: Activation)
    ensures s.active == a ==> r == s
    ensures s.active != a ==> r == Toggle(s)
  {
    if s.active == a then s else Toggle(s)
  }

  /**
   * An inactive tab whose action was replaced by TAB_DEACTIVATE_HEADERS (as
   * the header reason's message handler does) stays inactive when asked to
   * become active.
   */
  lemma SetActiveAsWrittenMissesTarget()
    ensures var s := Activation(false, Some(ReasonOnly(TabDeactivateHeaders)));
      !SetActiveAsWritten(s, true).active && SetActiveAsWritten(s, true).action == Some(TabDeactivateAction)
  {
  }

  /** The toggle, deciding by the flag: TAB_DEACTIVATE is dropped on activation and other actions kept. */
  function ToggleByFlag(s: Activation): (r: Activation)
    ensures r.active == !s.active
    ensures !s.active ==> r.action == if HasAction(s.action, TabDeactivate) then None else s.action
    ensures s.active ==> r.action == Some(TabDeactivateAction)
  {
    if !s.active then Activation(true, if HasAction(s.action, TabDeactivate) then None else s.action)
    else Activation(false, Some(TabDeactivateAction))
  }

  /** `setActiveState(tab, active)` as evidently intended: the tab ends with the flag asked for. */
  function SetActive(s: Activation, a: bool): (r: Activation)
    ensures r.active == a
    ensures s.active == a ==> r == s
    ensures !a ==> r.action == if s.active then Some(TabDeactivateAction) else s.action
  {
    if s.active == a then s else ToggleByFlag(s)
  }

  /** A tab is consistent when it is inactive exactly when it carries TAB_DEACTIVATE. */
  predicate Consistent(s: Activation) {
    !s.active <==> HasAction(s.action, TabDeactivate)
  }

  /**
   * On consistent tabs the intended `setActiveState` is the one written, and
   * both keep tabs consistent.
   */
  lemma SetActiveAgreesOnConsistent(s: Activation, a: bool)
    requires Consistent(s)
    ensures SetActive(s, a) == SetActiveAsWritten(s, a)
    ensures Consistent(SetActive(s, a))
  {
  }

  /** Toggling a consistent tab twice restores it, when an inactive tab's action is exactly TAB_DEACTIVATE. */
  lemma ToggleTwice(s: Activation)
    requires Consistent(s) && (!s.active ==> s.action == Some(TabDeactivateAction)) && (s.active ==> s.action.None?)
    ensures Toggle(Toggle(s)) == s
  {
  }

  /** A tab's activation. */
  function ActivationOf(tab: Tab): Activation
    reads tab
  {
    Activation(tab.active, tab.action)
  }

  /** `toggleActiveState(tab)` on the tab object, as written. */
  method ToggleActiveState(tab: Tab)
    modifies tab`active, tab`action, tab`notices
    ensures ActivationOf(tab) == Toggle(old(ActivationOf(tab)))
    ensures tab.notices == old(tab.notices) + if tab.listeners == {} then [] else [Notice(tab.listeners, tab.GetData())]
  {
    if HasAction(tab.action, TabDeactivate) {
      tab.SetActiveState(true);
      tab.action := None;
    } else {
      tab.SetActiveState(false);
      tab.action := Some(TabDeactivateAction);
    }
  }

  /** `setActiveState(tab, active)` on the tab object, as written. */
  method SetActiveStateAsWritten(tab: Tab, a: bool)
    modifies tab`active, tab`action, tab`notices
    ensures ActivationOf(tab) == SetActiveAsWritten(old(ActivationOf(tab)), a)
    ensures tab.notices == old(tab.notices) + if old(tab.active) == a || tab.listeners == {} then [] else [Notice(tab.listeners, tab.GetData())]
  {
    if tab.active == a {
      return;
    }
    ToggleActiveState(tab);
  }

  /** `setActiveState(tab, active)` on the tab object, as intended; the handlers below use this one. */
  method SetActiveState(tab: Tab, a: bool)
    modifies tab`active, tab`action, tab`notices
    ensures ActivationOf(tab) == SetActive(old(ActivationOf(tab)), a)
    ensures tab.active == a
    ensures old(Consistent(ActivationOf(tab))) ==> ActivationOf(tab) == SetActiveAsWritten(old(ActivationOf(tab)), a)
    ensures tab.notices == old(tab.notices) + if old(tab.active) == a || tab.listeners == {} then [] else [Notice(tab.listeners, tab.GetData())]
    ensures tab.State() == old(tab.State()).(active := a, action := tab.action, notices := tab.notices)
  {
    if Consistent(ActivationOf(tab)) {
      SetActiveAgreesOnConsistent(ActivationOf(tab), a);
    }
    if tab.active == a {
      return;
    }
    if !tab.active {
      tab.SetActiveState(true);
      if HasAction(tab.action, TabDeactivate) {
        tab.action := None;
      }
    } else {
      tab.SetActiveState(false);
      tab.action := Some(TabDeactivateAction);
    }
  }

  // -----------------------------------------------------------------------
  // The handlers of the built-in reasons.
  // -----------------------------------------------------------------------

  /**
   * `userHostDeactivateRequestHandler`: lets the request through
   * unconditionally and makes the request's tab inactive (the source fails
   * for an unknown tab).
   */
  method UserHostDeactivateRequestHandler(tabs: Tabs, details: Details)
    requires details.request.tabId in tabs.data
    modifies details, tabs.data[details.request.tabId]
    ensures details.shortCircuit == Some(true) && details.response == Some(NoAction)
    ensures var tab := tabs.data[details.request.tabId];
      ActivationOf(tab) == SetActive(old(ActivationOf(tab)), false) && !tab.active
    ensures var tab := tabs.data[details.request.tabId];
      old(Consistent(ActivationOf(tab))) ==> ActivationOf(tab) == SetActiveAsWritten(old(ActivationOf(tab)), false)
    ensures var tab := tabs.data[details.request.tabId];
      && tab.notices == old(tab.notices) + (if !old(tab.active) || tab.listeners == {} then [] else [Notice(tab.listeners, tab.GetData())])
      && tab.State() == old(tab.State()).(active := false, action := tab.action, notices := tab.notices)
  {
    details.shortCircuit := Some(true);
    details.response := Some(NoAction);
    SetActiveState(tabs.data[details.request.tabId], false);
  }

  /**
   * The mutator of `onUserHostDeactivate`: a domain carrying
   * USER_HOST_DEACTIVATE loses its action; any other gets that action with the
   * tab's href (replacing whatever action it had).
   */
  function HostToggle(domain: Domain, href: string): (r: Domain)
    ensures r.paths == domain.paths && r.isInstance == domain.isInstance
    ensures HasAction(domain.action, UserHostDeactivate) ==> r.action.None?
    ensures !HasAction(domain.action, UserHostDeactivate) ==>
      r.action == Some(Action(UserHostDeactivate, None, Some(href), None, None, None))
  {
    if HasAction(domain.action, UserHostDeactivate) then domain.(action := None)
    else domain.(action := Some(Action(UserHostDeactivate, None, Some(href), None, None, None)))
  }

  /** Deactivating a host and activating it again restores a domain that had no action. */
  lemma HostToggleTwice(domain: Domain, href: string)
    requires domain.action.None?
    ensures HostToggle(HostToggle(domain, href), href) == domain
    ensures HasAction(HostToggle(domain, href).action, UserHostDeactivate)
  {
  }

  /** The store side of `onUserHostDeactivate` for the tab's url. */
  function HostDeactivateUpdate(view: map<string, Domain>, parse: UrlParser, tabUrl: string): map<string, Domain> {
    var href := parse(tabUrl).href;
    UpdateDomain(view, parse, href, d => Write(HostToggle(d, href)))
  }

  /**
   * A host without USER_HOST_DEACTIVATE gets it with the tab's href; a host
   * with it loses it; either way its paths are kept and no other host changes.
   */
  lemma HostDeactivateUpdateEffect(view: map<string, Domain>, parse: UrlParser, tabUrl: string)
    ensures var href := parse(tabUrl).href;
      var host := parse(href).hostname;
      var before := Lookup(view, host).GetOr(NewDomain());
      var r := HostDeactivateUpdate(view, parse, tabUrl);
      && host in r && r[host].paths == before.paths
      && (HasAction(before.action, UserHostDeactivate) ==> r[host].action.None?)
      && (!HasAction(before.action, UserHostDeactivate) ==> HasAction(r[host].action, UserHostDeactivate) && r[host].action.value.href == Some(href))
      && (forall h :: h != host ==> Lookup(r, h) == Lookup(view, h))
  {
    var href := parse(tabUrl).href;
    var host := parse(href).hostname;
    var before := Lookup(view, host).GetOr(NewDomain());
    assert (d => Write(HostToggle(d, href)))(before) == Write(HostToggle(before, href));
  }

  /**
   * `onUserHostDeactivate`: toggles the host's USER_HOST_DEACTIVATE action and
   * makes the tab active exactly when the host had it. The source fails for a
   * tab without url.
   */
  method OnUserHostDeactivate(tabs: Tabs, view: map<string, Domain>, parse: UrlParser, tabId: int)
    returns (newView: map<string, Domain>)
    requires tabs.GetTabUrl(tabId).Some?
    modifies tabs.data[tabId]
    ensures newView == HostDeactivateUpdate(view, parse, old(tabs.GetTabUrl(tabId)).value)
    ensures var href := parse(old(tabs.GetTabUrl(tabId)).value).href;
      var wasDeactivated := HasAction(Lookup(view, parse(href).hostname).GetOr(NewDomain()).action, UserHostDeactivate);
      ActivationOf(tabs.data[tabId]) == SetActive(old(ActivationOf(tabs.data[tabId])), wasDeactivated)
    ensures var href := parse(old(tabs.GetTabUrl(tabId)).value).href;
      var wasDeactivated := HasAction(Lookup(view, parse(href).hostname).GetOr(NewDomain()).action, UserHostDeactivate);
      old(Consistent(ActivationOf(tabs.data[tabId]))) ==>
        ActivationOf(tabs.data[tabId]) == SetActiveAsWritten(old(ActivationOf(tabs.data[tabId])), wasDeactivated)
    ensures var tab := tabs.data[tabId];
      && tab.notices == old(tab.notices) + (if old(tab.active) == tab.active || tab.listeners == {} then [] else [Notice(tab.listeners, tab.GetData())])
      && tab.State() == old(tab.State()).(active := tab.active, action := tab.action, notices := tab.notices)
  {
    var url := parse(tabs.GetTabUrl(tabId).value);
    var active := HasAction(Lookup(view, parse(url.href).hostname).GetOr(NewDomain()).action, UserHostDeactivate);
    newView := HostDeactivateUpdate(view, parse, tabs.GetTabUrl(tabId).value);
    SetActiveState(tabs.data[tabId], active);
  }

  /** `onUserUrlDeactivate`: the url's path gets USER_URL_DEACTIVATE with the url as href. */
  function OnUserUrlDeactivate(view: map<string, Domain>, parse: UrlParser, url: string): (r: map<string, Domain>)
    ensures parse(url).hostname in r
    ensures GetResponse(r[parse(url).hostname], parse(url).pathname) == Full(Action(UserUrlDeactivate, None, Some(url), None, None, None))
    ensures forall h :: h in view && h != parse(url).hostname ==> h in r && r[h] == view[h]
  {
    SetDomainPath(view, parse, url, Action(UserUrlDeactivate, None, Some(url), None, None, None))
  }

  /** The action `onFingerPrinting` stores for a script. */
  function FingerprintAction(tabs: Tabs, parse: UrlParser, tabId: int, frameId: int, url: string): (a: Action)
    reads tabs, tabs.data.Values
    ensures a.reason == Fingerprinting && a.href == Some(parse(url).href)
    ensures a.frameUrl == tabs.GetFrameUrl(tabId, frameId) && a.tabUrl == tabs.GetTabUrl(tabId)
  {
    Action(Fingerprinting, None, Some(parse(url).href), tabs.GetFrameUrl(tabId, frameId), tabs.GetTabUrl(tabId), None)
  }

  /**
   * `onFingerPrinting` of reasons.js: only for a url the tab tracker recorded
   * as a script of the sender's tab and frame, the tab marks the script and
   * the script's path gets the FINGERPRINTING action. `tabs.markResponse` is
   * not part of tabs.js; it is modelled as the tab's `markAction` with the
   * response added to the action.
   */
  method OnFingerPrinting(tabs: Tabs, view: map<string, Domain>, parse: UrlParser, tabId: int, frameId: int, url: string)
    returns (newView: map<string, Domain>)
    modifies if tabId in tabs.data then {tabs.data[tabId]} else {}
    ensures !old(tabs.HasResource(tabId, frameId, url, "script")) ==> newView == view
    ensures old(tabs.HasResource(tabId, frameId, url, "script")) ==>
      var action := old(FingerprintAction(tabs, parse, tabId, frameId, url));
      && newView == SetDomainPath(view, parse, parse(url).href, action)
      && (old(tabs.data[tabId].active) ==> tabs.data[tabId].actions == old(tabs.data[tabId].actions)[parse(url).href := action.(response := Some(Cancel))])
      && (!old(tabs.data[tabId].active) ==> tabs.data[tabId].actions == old(tabs.data[tabId].actions))
      && (var tab := tabs.data[tabId];
          tab.notices == old(tab.notices) + if old(tab.active) && tab.listeners != {} then [Notice(tab.listeners, tab.GetData())] else [])
    ensures tabId in tabs.data ==>
      var tab := tabs.data[tabId];
      tab.State() == old(tab.State()).(actions := tab.actions, notices := tab.notices)
    ensures tabId in tabs.data && !old(tabs.HasResource(tabId, frameId, url, "script")) ==> unchanged(tabs.data[tabId])
  {
    if tabs.HasResource(tabId, frameId, url, "script") {
      var action := FingerprintAction(tabs, parse, tabId, frameId, url);
      var href := parse(url).href;
      tabs.data[tabId].MarkAction(action.(response := Some(Cancel)), href);
      newView := SetDomainPath(view, parse, href, action);
    } else {
      newView := view;
    }
  }

  // -----------------------------------------------------------------------
  // Dispatch on an action's reason.
  // -----------------------------------------------------------------------

  /** The request handlers a reason can register. */
  datatype RequestHandlerKind =
    | SetResponseHandler(response: Response, shortCircuit: bool)
    | UserHostDeactivateHandler
    | HeaderHostHandler
    | TabHeaderHandler(headerMethods: set<string>)

  /** The tab handlers a reason can register; the only one sets the tab's icon. */
  datatype TabHandlerKind = TabIconHandler

  /** A `Reason`: its name and the handlers it provides. */
  datatype ReasonEntry = ReasonEntry(name: Reason, requestHandler: Option<RequestHandlerKind>, tabHandler: Option<TabHandlerKind>)

  /** The built-in `reasons` table. */
  const BuiltinReasons: seq<ReasonEntry> := [
    ReasonEntry(Fingerprinting, Some(SetResponseHandler(Cancel, false)), None),
    ReasonEntry(UserUrlDeactivate, Some(SetResponseHandler(NoAction, false)), None),
    ReasonEntry(TabDeactivate, Some(SetResponseHandler(NoAction, true)), Some(TabIconHandler)),
    ReasonEntry(UserHostDeactivate, Some(UserHostDeactivateHandler), None)]

  /** The reasons of headers.js, with the header request types they test against. */
  function HeaderReasons(headerMethods: set<string>): (r: seq<ReasonEntry>)
    ensures |r| == 2 && r[0].name == HeaderDeactivateOnHost && r[1].name == TabDeactivateHeaders
  {
    [ReasonEntry(HeaderDeactivateOnHost, Some(HeaderHostHandler), None),
     ReasonEntry(TabDeactivateHeaders, Some(TabHeaderHandler(headerMethods)), None)]
  }

  /** What handing an entity to a dispatch table does. */
  datatype Dispatched =
    | NotDispatched            // the entity has no own action
    | Dispatched(reason: Reason)
    | Unregistered(reason: Reason) // the source calls an undefined handler and fails

  /** The table lookup of `handleRequest` and `handleUpdated`. */
  function Route<H>(funcs: map<Reason, H>, action: Option<Action>): (r: Dispatched)
    ensures action.None? <==> r.NotDispatched?
    ensures r.Dispatched? <==> action.Some? && action.value.reason in funcs
    ensures !r.NotDispatched? ==> r.reason == action.value.reason
  {
    match action
    case None => NotDispatched
    case Some(a) => if a.reason in funcs then Dispatched(a.reason) else Unregistered(a.reason)
  }

  /** What a request handler needs of the tab tracker: the request's tab when it touches it. */
  predicate HandlerCanRun(kind: RequestHandlerKind, tabs: Tabs, details: Details)
    reads tabs
  {
    match kind
    case UserHostDeactivateHandler => details.request.tabId in tabs.data
    case HeaderHostHandler => details.request.resourceType == "main_frame" ==> details.request.tabId in tabs.data
    case _ => true
  }

  class RequestHandler {
    const tabs: Tabs
    /** Reason name to request handler. */
    var funcs: map<Reason, RequestHandlerKind>

    constructor (tabs: Tabs)
      ensures this.tabs == tabs && funcs == map[]
    {
      this.tabs := tabs;
      funcs := map[];
    }

    /** `addReason`: registers the reason's request handler under its name. */
    method AddReason(name: Reason, handler: RequestHandlerKind)
      modifies this`funcs
      ensures funcs == old(funcs)[name := handler]
    {
      funcs := funcs[name := handler];
    }

    /**
     * `handleRequest(obj, details)`: nothing when the entity has no own
     * action; else the handler registered for the action's reason runs.
     */
    method HandleRequest(action: Option<Action>, details: Details) returns (outcome: Dispatched)
      requires action.Some? && action.value.reason in funcs ==> HandlerCanRun(funcs[action.value.reason], tabs, details)
      modifies details, if details.request.tabId in tabs.data then {tabs.data[details.request.tabId]} else {}
      ensures outcome == Route(funcs, action)
      ensures !outcome.Dispatched? ==> unchanged(details)
      ensures outcome.Dispatched? && funcs[outcome.reason].SetResponseHandler? ==>
        details.response == Some(funcs[outcome.reason].response) &&
        details.shortCircuit == Some(funcs[outcome.reason].shortCircuit)
      ensures outcome.Dispatched? && funcs[outcome.reason].UserHostDeactivateHandler? ==>
        var tab := tabs.data[details.request.tabId];
        && details.response == Some(NoAction) && details.shortCircuit == Some(true)
        && ActivationOf(tab) == SetActive(old(ActivationOf(tab)), false) && !tab.active
        && (old(Consistent(ActivationOf(tab))) ==> ActivationOf(tab) == SetActiveAsWritten(old(ActivationOf(tab)), false))
        && tab.State() == old(tab.State()).(active := false, action := tab.action, notices := tab.notices)
      ensures outcome.Dispatched? && funcs[outcome.reason].HeaderHostHandler? ==>
        if details.request.resourceType == "main_frame" then
          var tab := tabs.data[details.request.tabId];
          && details.response == Some(NoAction) && details.shortCircuit == Some(true)
          && tab.action == Some(ReasonOnly(TabDeactivateHeaders)) && !tab.headerCountsActive
          && tab.State() == old(tab.State()).(action := tab.action, headerCountsActive := false, notices := tab.notices)
        else unchanged(details)
      ensures outcome.Dispatched? && funcs[outcome.reason].TabHeaderHandler? ==>
        if Headers.IsHeaderRequest(details.request, funcs[outcome.reason].headerMethods) then
          details.response == Some(NoAction) && details.shortCircuit == Some(true)
        else unchanged(details)
      ensures details.request.tabId in tabs.data ==>
        (outcome.Dispatched? &&
          (funcs[outcome.reason].UserHostDeactivateHandler? ||
           (funcs[outcome.reason].HeaderHostHandler? && details.request.resourceType == "main_frame")))
        || unchanged(tabs.data[details.request.tabId])
    {
      outcome := Route(funcs, action);
      if !outcome.Dispatched? {
        return;
      }
      match funcs[outcome.reason]
      case SetResponseHandler(response, shortCircuit) =>
        SetResponse(details, response, shortCircuit);
      case UserHostDeactivateHandler =>
        UserHostDeactivateRequestHandler(tabs, details);
      case HeaderHostHandler =>
        Headers.RequestHandler(tabs, details);
      case TabHeaderHandler(headerMethods) =>
        Headers.TabHeaderHandler(details, headerMethods);
    }
  }

  class TabHandler {
    const tabs: Tabs
    /** Reason name to tab handler. */
    var funcs: map<Reason, TabHandlerKind>

    constructor (tabs: Tabs)
      ensures this.tabs == tabs && funcs == map[]
    {
      this.tabs := tabs;
      funcs := map[];
    }

    /** `addReason`: registers the reason's tab handler under its name. */
    method AddReason(name: Reason, handler: TabHandlerKind)
      modifies this`funcs
      ensures funcs == old(funcs)[name := handler]
    {
      funcs := funcs[name := handler];
    }

    /**
     * `handleUpdated(tabId)`: nothing for an unknown tab or a tab without
     * own action; else the handler registered for the action's reason runs
     * (it only sets the tab's icon).
     */
    method HandleUpdated(tabId: int) returns (outcome: Dispatched)
      ensures tabId !in tabs.data ==> outcome.NotDispatched?
      ensures tabId in tabs.data ==> outcome == Route(funcs, tabs.data[tabId].action)
    {
      if tabId in tabs.data {
        outcome := Route(funcs, tabs.data[tabId].action);
      } else {
        outcome := NotDispatched;
      }
    }
  }

  class Handler {
    const requestHandler: RequestHandler
    const tabHandler: TabHandler

    /** `new Handler(tabs, store)`: both tables hold the built-in reasons. */
    constructor (tabs: Tabs)
      ensures fresh(requestHandler) && fresh(tabHandler)
      ensures requestHandler.tabs == tabs && tabHandler.tabs == tabs
      ensures requestHandler.funcs == map[
        Fingerprinting := SetResponseHandler(Cancel, false),
        UserUrlDeactivate := SetResponseHandler(NoAction, false),
        TabDeactivate := SetResponseHandler(NoAction, true),
        UserHostDeactivate := UserHostDeactivateHandler]
      ensures tabHandler.funcs == map[TabDeactivate := TabIconHandler]
    {
      requestHandler := new RequestHandler(tabs);
      tabHandler := new TabHandler(tabs);
      new;
      var i := 0;
      while i < |BuiltinReasons|
        invariant 0 <= i <= |BuiltinReasons|
        invariant requestHandler.funcs == RequestTable(map[], BuiltinReasons[..i])
        invariant tabHandler.funcs == TabTable(map[], BuiltinReasons[..i])
      {
        assert BuiltinReasons[..i + 1][..i] == BuiltinReasons[..i];
        AddReason(BuiltinReasons[i]);
        i := i + 1;
      }
      assert BuiltinReasons[..i] == BuiltinReasons;
      BuiltinTables();
    }

    /** `addReason`: registers the handlers the reason provides, each in its own table. */
    method AddReason(reason: ReasonEntry)
      modifies requestHandler`funcs, tabHandler`funcs
      ensures requestHandler.funcs == RequestTable(old(requestHandler.funcs), [reason])
      ensures tabHandler.funcs == TabTable(old(tabHandler.funcs), [reason])
    {
      if reason.requestHandler.Some? {
        requestHandler.AddReason(reason.name, reason.requestHandler.value);
      }
      if reason.tabHandler.Some? {
        tabHandler.AddReason(reason.name, reason.tabHandler.value);
      }
    }
  }

  /** The request table after registering the reasons in order. */
  function RequestTable(funcs: map<Reason, RequestHandlerKind>, reasons: seq<ReasonEntry>): map<Reason, RequestHandlerKind> {
    if reasons == [] then funcs
    else
      var init := RequestTable(funcs, reasons[..|reasons| - 1]);
      var last := reasons[|reasons| - 1];
      if last.requestHandler.Some? then init[last.name := last.requestHandler.value] else init
  }

  /** The tab table after registering the reasons in order. */
  function TabTable(funcs: map<Reason, TabHandlerKind>, reasons: seq<ReasonEntry>): map<Reason, TabHandlerKind> {
    if reasons == [] then funcs
    else
      var init := TabTable(funcs, reasons[..|reasons| - 1]);
      var last := reasons[|reasons| - 1];
      if last.tabHandler.Some? then init[last.name := last.tabHandler.value] else init
  }

  /**
   * A registered reason is found under its name: the last registration of a
   * name wins, and a reason without that kind of handler leaves the table alone.
   */
  lemma {:induction false} RequestTableFinds(funcs: map<Reason, RequestHandlerKind>, reasons: seq<ReasonEntry>, name: Reason)
    ensures var t := RequestTable(funcs, reasons);
      var registering := set i | 0 <= i < |reasons| && reasons[i].name == name && reasons[i].requestHandler.Some?;
      && (name in t <==> name in funcs || registering != {})
      && (registering == {} && name in funcs ==> t[name] == funcs[name])
  {
    if reasons != [] {
      var init := reasons[..|reasons| - 1];
      RequestTableFinds(funcs, init, name);
      var registering := set i | 0 <= i < |reasons| && reasons[i].name == name && reasons[i].requestHandler.Some?;
      var before := set i | 0 <= i < |init| && init[i].name == name && init[i].requestHandler.Some?;
      var last := |reasons| - 1;
      assert registering == before + if reasons[last].name == name && reasons[last].requestHandler.Some? then {last} else {};
    }
  }

  /** Registering the built-in reasons in order gives these two tables. */
  lemma BuiltinTables()
    ensures RequestTable(map[], BuiltinReasons) == map[
        Fingerprinting := SetResponseHandler(Cancel, false),
        UserUrlDeactivate := SetResponseHandler(NoAction, false),
        TabDeactivate := SetResponseHandler(NoAction, true),
        UserHostDeactivate := UserHostDeactivateHandler]
    ensures TabTable(map[], BuiltinReasons) == map[TabDeactivate := TabIconHandler]
  {
    var b := BuiltinReasons;
    var none: map<Reason, RequestHandlerKind> := map[];
    var noTab: map<Reason, TabHandlerKind> := map[];
    assert b[..1][..0] == [];
    assert RequestTable(none, b[..1]) == map[Fingerprinting := SetResponseHandler(Cancel, false)];
    assert TabTable(noTab, b[..1]) == map[];
    assert b[..2][..1] == b[..1];
    assert RequestTable(none, b[..2]) == map[Fingerprinting := SetResponseHandler(Cancel, false),
      UserUrlDeactivate := SetResponseHandler(NoAction, false)];
    assert TabTable(noTab, b[..2]) == map[];
    assert b[..3][..2] == b[..2];
    assert RequestTable(none, b[..3]) == map[Fingerprinting := SetResponseHandler(Cancel, false),
      UserUrlDeactivate := SetResponseHandler(NoAction, false), TabDeactivate := SetResponseHandler(NoAction, true)];
    assert TabTable(noTab, b[..3]) == map[TabDeactivate := TabIconHandler];
    assert b[..|b| - 1] == b[..3];
  }

  /**
   * A hypothetical configuration: if the header reasons were registered
   * after the built-in ones, which no code of the engine does, every reason
   * name would have a request handler.
   */
  lemma AllReasonsRegistered(headerMethods: set<string>)
    ensures var t := RequestTable(RequestTable(map[], BuiltinReasons), HeaderReasons(headerMethods));
      forall r :: r in {Fingerprinting, UserUrlDeactivate, TabDeactivate, UserHostDeactivate, HeaderDeactivateOnHost, TabDeactivateHeaders} ==> r in t
  {
    BuiltinTables();
    var base := RequestTable(map[], BuiltinReasons);
    var reasons := HeaderReasons(headerMethods);
    assert reasons[..1][..0] == [];
    assert RequestTable(base, reasons[..1]) == base[HeaderDeactivateOnHost := HeaderHostHandler];
    assert reasons[..|reasons| - 1] == reasons[..1];
    assert RequestTable(base, reasons) == base[HeaderDeactivateOnHost := HeaderHostHandler][TabDeactivateHeaders := TabHeaderHandler(headerMethods)];
  }
}

=== FILE: requests.dfy ===
/**
 * What the browser hands the decision engine: parsed URLs, the details of a
 * network request, and request headers. URL parsing itself is the browser's
 * (`new URL(...)`) and enters the model as a parameter of type UrlParser.
 */
module Requests {
  import opened Wrappers
  import opened Schemes

  /** The three projections of a parsed URL the engine reads. */
  datatype Url = Url(href: string, hostname: string, pathname: string)

  /** `new URL(s)`, left uninterpreted. */
  type UrlParser = string -> Url

  /** The request details of a webRequest event. */
  datatype RequestDetails = RequestDetails(
    tabId: int,
    frameId: int,
    parentFrameId: int,
    requestId: int,
    url: string,
    httpMethod: string,
    resourceType: string,
    requestType: Option<string>)

  /**
   * The details object the request handlers write their verdict into: the
   * browser's request details plus the `response` and `shortCircuit` fields,
   * both undefined until a handler sets them.
   */
  class Details {
    const request: RequestDetails
    var response: Option<Response>
    var shortCircuit: Option<bool>

    constructor (request: RequestDetails)
      ensures this.request == request && response.None? && shortCircuit.None?
    {
      this.request := request;
      response := None;
      shortCircuit := None;
    }
  }

  datatype Header = Header(name: string, value: string)

  /** One character of `toLowerCase`, on the ASCII letters. */
  function LowerChar(c: char): (r: char)
    ensures 'A' <= c <= 'Z' ==> r as int == c as int + 32
    ensures !('A' <= c <= 'Z') ==> r == c
  {
    if 'A' <= c <= 'Z' then (c as int + 32) as char else c
  }

  /** `toLowerCase`, on the ASCII letters. */
  function Lower(s: string): (r: string)
    ensures |r| == |s|
    ensures forall i :: 0 <= i < |s| ==> r[i] == LowerChar(s[i])
  {
    seq(|s|, i requires 0 <= i < |s| => LowerChar(s[i]))
  }

  /** Lower-casing twice is lower-casing once. */
  lemma LowerIdempotent(s: string)
    ensures Lower(Lower(s)) == Lower(s)
  {
  }

  /** `s.endsWith(suffix)`. */
  predicate EndsWith(s: string, suffix: string) {
    |suffix| <= |s| && s[|s| - |suffix|..] == suffix
  }
}

=== FILE: schemes.dfy ===
/**
 * The records the domain store persists (src/js/schemes.js): an Action says
 * why and what was decided, a Path carries the decision for one URL path, and
 * a Domain maps path names to Paths and may carry a domain-wide action.
 */
module Schemes {
  import opened Wrappers

  /**
   * The reason names used by the decision engine. The constants module that
   * defines their strings is not part of this model; only their identity matters.
   */
  datatype Reason =
    | Fingerprinting
    | UserUrlDeactivate
    | UserHostDeactivate
    | TabDeactivate
    | HeaderDeactivateOnHost
    | TabDeactivateHeaders
    | EtagUnknown
    | EtagSafe
    | EtagTracking
    | RemoveAction

  /** The two request responses: let the request through, or cancel it. */
  datatype Response = NoAction | Cancel

  /** The extra data an etag action carries. */
  datatype ActionData = EtagData(etagValue: string)

  /**
   * An Action holds exactly the fields it was built with; a field the caller
   * left out is None (JavaScript's `undefined`).
   */
  datatype Action = Action(
    reason: Reason,
    response: Option<Response>,
    href: Option<string>,
    frameUrl: Option<string>,
    tabUrl: Option<string>,
    data: Option<ActionData>)

  /** An action with a reason and nothing else, as `new Action({reason})` builds. */
  function ReasonOnly(reason: Reason): (a: Action)
    ensures a.reason == reason && a.response.None? && a.href.None?
  {
    Action(reason, None, None, None, None, None)
  }

  /**
   * What a path's `action` field holds: an Action record, or a bare response
   * constant (the fingerprint report stores CANCEL itself, and `getResponse`
   * answers the NO_ACTION constant for a path that is not there).
   */
  datatype Decision = Bare(response: Response) | Full(action: Action)

  /** The context stored beside a path's decision. */
  datatype Context = Context(reason: Reason, url: string, frameUrl: Option<string>, tabUrl: Option<string>)

  datatype Path = Path(action: Decision, context: Option<Context>)

  type PathMap = map<string, Path>

  /**
   * A record held under a hostname: its paths and an optional domain-wide
   * action. `isInstance` tells an instance of the Domain class from a plain
   * object with the same fields (what the store's `update` builds from `{}`).
   */
  datatype Domain = Domain(paths: PathMap, action: Option<Action>, isInstance: bool)

  /** `new Domain()`: no paths, no action. */
  function NewDomain(): (d: Domain)
    ensures d.paths == map[] && d.action.None? && d.isInstance
  {
    Domain(map[], None, true)
  }

  /** `new Domain(data)`: adopts `data.paths` and nothing else. */
  function DomainFrom(data: Domain): (d: Domain)
    ensures d.paths == data.paths && d.action.None? && d.isInstance
  {
    Domain(data.paths, None, true)
  }

  /** `hasAction(obj, reason)`: the object carries an own action with that reason. */
  predicate HasAction(action: Option<Action>, reason: Reason) {
    action.Some? && action.value.reason == reason
  }

  /** `getResponse`: the path's decision, or the NO_ACTION constant for a path the domain lacks. */
  function GetResponse(d: Domain, path: string): Decision {
    if path in d.paths then d.paths[path].action else Bare(NoAction)
  }

  /** `setPath`: replaces the entry for `path` and nothing else. */
  function SetPath(d: Domain, path: string, action: Decision, context: Option<Context>): (r: Domain)
    ensures r.paths.Keys == d.paths.Keys + {path}
    ensures r.paths[path] == Path(action, context)
    ensures forall q :: q in d.paths && q != path ==> r.paths[q] == d.paths[q]
    ensures r.action == d.action && r.isInstance == d.isInstance
  {
    d.(paths := d.paths[path := Path(action, context)])
  }

  /**
   * `updateDomainPath`: sets the path on the given domain, or on a fresh one
   * when there is no domain or the value is not an instance of Domain.
   */
  function UpdateDomainPath(domain: Option<Domain>, path: string, action: Decision, context: Option<Context>): (r: Domain)
    ensures r.isInstance
    ensures path in r.paths && r.paths[path] == Path(action, context)
    ensures domain.Some? && domain.value.isInstance ==>
      r.paths.Keys == domain.value.paths.Keys + {path} && r.action == domain.value.action &&
      forall q :: q in domain.value.paths && q != path ==> r.paths[q] == domain.value.paths[q]
    ensures !(domain.Some? && domain.value.isInstance) ==> r.paths.Keys == {path} && r.action.None?
  {
    var base := if domain.Some? && domain.value.isInstance then domain.value else NewDomain();
    SetPath(base, path, action, context)
  }

  /** A path just set answers with its decision. */
  lemma GetAfterSetPath(d: Domain, path: string, action: Decision, context: Option<Context>)
    ensures GetResponse(SetPath(d, path, action, context), path) == action
  {
  }

  /** Setting one path leaves every other path's answer as it was. */
  lemma SetPathLeavesOthers(d: Domain, path: string, other: string, action: Decision, context: Option<Context>)
    requires other != path
    ensures GetResponse(SetPath(d, path, action, context), other) == GetResponse(d, other)
  {
  }

  /** After `updateDomainPath`, the path answers with the decision given. */
  lemma UpdateDomainPathAnswers(domain: Option<Domain>, path: string, action: Decision, context: Option<Context>)
    ensures GetResponse(UpdateDomainPath(domain, path, action, context), path) == action
  {
  }

  /** A fresh domain answers NO_ACTION for every path. */
  lemma NewDomainAnswersNoAction(path: string)
    ensures GetResponse(NewDomain(), path) == Bare(NoAction)
  {
  }
}

=== FILE: store.dfy ===
/**
 * The domain store (src/js/store.js): a suffix tree of Domain records keyed
 * by hostname, written through to a persisted key/value map. The persisted
 * map's asynchronous disk backend is modelled as a plain map updated at the
 * moment of each write.
 */
module Store {
  import opened Wrappers
  import opened Schemes
  import opened Requests
  import opened SuffixTree

  /**
   * The object `update` copies over the stored value: each field it has
   * replaces the stored one. A field present with the value `undefined`
   * is not expressible here.
   */
  datatype Patch = Patch(paths: Option<PathMap>, action: Option<Action>)

  /**
   * `{}`: the plain object `update` starts from when the key holds nothing,
   * read as a Domain with no paths. The JavaScript `{}` has no `paths`
   * field at all.
   */
  const EmptyObject: Domain := Domain(map[], None, false)

  /** `Object.assign(value, patch)`: the patch's fields win, the value's other fields are kept. */
  function Merge(value: Domain, patch: Patch): (r: Domain)
    ensures r.paths == (if patch.paths.Some? then patch.paths.value else value.paths)
    ensures r.action == (if patch.action.Some? then patch.action else value.action)
    ensures r.isInstance == value.isInstance
  {
    Domain(patch.paths.GetOr(value.paths), if patch.action.Some? then patch.action else value.action, value.isInstance)
  }

  /** A patch with no fields changes nothing; merging the same patch twice is merging it once. */
  lemma MergeLaws(value: Domain, patch: Patch)
    ensures Merge(value, Patch(None, None)) == value
    ensures Merge(Merge(value, patch), patch) == Merge(value, patch)
  {
  }

  /**
   * What loading restores from a persisted value, as `load` is written:
   * `new Domain(value)` keeps the paths and drops a domain-wide action.
   */
  function RestoreAsWritten(value: Domain): (d: Domain)
    ensures d == DomainFrom(value)
    ensures d == value <==> value.action.None? && value.isInstance
  {
    DomainFrom(value)
  }

  /** A host deactivated by the user loses its deactivation when the store is loaded again. */
  lemma LoadForgetsHostDeactivation()
    ensures
      var persisted := Domain(map[], Some(Action(UserHostDeactivate, None, Some("https://example.com/"), None, None, None)), true);
      RestoreAsWritten(persisted) != persisted && RestoreAsWritten(persisted).action.None?
  {
  }

  /** What loading restores from a persisted value: a Domain with all of the value's fields. */
  function Restore(value: Domain): (d: Domain)
    ensures d.paths == value.paths && d.action == value.action && d.isInstance
  {
    value.(isInstance := true)
  }

  class DomainStore {
    /** `new URL(...)`, as the store's URL operations parse their argument. */
    const parse: UrlParser
    const tree: Tree<Domain>
    /** The persisted key/value map; its key set is the store's `keys`. */
    var diskMap: map<string, Domain>

    /** The tree holds a value exactly under the persisted keys. */
    ghost predicate Valid()
      reads this, tree
    {
      && tree.Valid()
      && forall k :: tree.Item(k).Some? <==> k in diskMap
    }

    /** The store's content: each persisted key with the value `get` answers for it. */
    ghost function View(): map<string, Domain>
      reads this, tree
      requires Valid()
    {
      map k | k in diskMap :: tree.Item(k).value
    }

    /** Every persisted key holds exactly the value the tree answers for it: writes go through unchanged. */
    ghost predicate Synced()
      reads this, tree
    {
      && Valid()
      && forall k | k in diskMap :: tree.Item(k) == Some(diskMap[k])
    }

    constructor (parse: UrlParser)
      ensures Valid() && Synced() && fresh(tree)
      ensures this.parse == parse && diskMap == map[]
    {
      this.parse := parse;
      tree := new Tree();
      diskMap := map[];
    }

    /** `keys`: the persisted key set. */
    function Keys(): set<string>
      reads this
    {
      diskMap.Keys
    }

    /** `get`: the tree's value for a hostname, present exactly for the persisted keys. */
    function Get(key: string): (r: Option<Domain>)
      reads this, tree
      requires Valid()
      ensures r.Some? <==> key in Keys()
    {
      tree.Item(key)
    }

    /** `has`: holds exactly when `get` finds a value. */
    function Has(key: string): (r: bool)
      reads this, tree
      requires Valid()
      ensures r <==> Get(key).Some?
    {
      key in diskMap
    }

    /** `getUrl`: the value stored under the URL's hostname. */
    function GetUrl(url: string): Option<Domain>
      reads this, tree
      requires Valid()
    {
      Get(parse(url).hostname)
    }

    /** `set`: writes the value into the tree and through to the persisted map. */
    method Set(key: string, value: Domain)
      requires Valid()
      modifies this, tree
      ensures Valid() && (old(Synced()) ==> Synced())
      ensures diskMap == old(diskMap)[key := value]
      ensures Get(key) == Some(value)
      ensures forall other :: other != key ==> Get(other) == old(Get(other))
    {
      tree.SetItem(key, value);
      diskMap := diskMap[key := value];
    }

    /** `update`: the stored value (or `{}`) with the patch's fields copied over, written back. */
    method Update(key: string, patch: Patch)
      requires Valid()
      modifies this, tree
      ensures Valid() && (old(Synced()) ==> Synced())
      ensures diskMap == old(diskMap)[key := Merge(old(Get(key)).GetOr(EmptyObject), patch)]
      ensures Get(key) == Some(Merge(old(Get(key)).GetOr(EmptyObject), patch))
      ensures forall other :: other != key ==> Get(other) == old(Get(other))
      ensures Keys() == old(Keys()) + {key}
    {
      var current := tree.GetItem(key);
      var value := current.GetOr(EmptyObject);
      Set(key, Merge(value, patch));
    }

    /** `setUrl`: `set` under the URL's hostname. */
    method SetUrl(url: string, value: Domain)
      requires Valid()
      modifies this, tree
      ensures Valid() && (old(Synced()) ==> Synced())
      ensures diskMap == old(diskMap)[parse(url).hostname := value]
      ensures forall u :: parse(u).hostname == parse(url).hostname ==> GetUrl(u) == Some(value)
      ensures forall other :: other != parse(url).hostname ==> Get(other) == old(Get(other))
    {
      Set(parse(url).hostname, value);
    }

    /** `updateUrl`: stores `callback(getUrl(url))` under the URL's hostname. */
    method UpdateUrl(url: string, callback: Option<Domain> -> Domain)
      requires Valid()
      modifies this, tree
      ensures Valid() && (old(Synced()) ==> Synced())
      ensures diskMap == old(diskMap)[parse(url).hostname := callback(old(GetUrl(url)))]
      ensures GetUrl(url) == Some(callback(old(GetUrl(url))))
      ensures forall other :: other != parse(url).hostname ==> Get(other) == old(Get(other))
    {
      var current := tree.GetItem(parse(url).hostname);
      SetUrl(url, callback(current));
    }

    /** `getBranchData`, bound from the tree. */
    method GetBranchData(key: string) returns (r: Option<map<Label, Domain>>)
      requires Valid()
      ensures r == BranchOf(tree.nodes, Splitter(key))
      ensures r.None? ==> Get(key).None?
    {
      r := tree.GetBranchData(key);
      BranchAbsentIff(tree.nodes, key);
    }

    /**
     * The loop of `load`: a store over the persisted map whose tree holds
     * `restore` of each persisted value under its key.
     */
    static method LoadWith(parse: UrlParser, persisted: map<string, Domain>, restore: Domain -> Domain)
      returns (s: DomainStore)
      ensures fresh(s) && fresh(s.tree) && s.Valid()
      ensures s.parse == parse && s.diskMap == persisted
      ensures forall k :: s.Get(k) == if k in persisted then Some(restore(persisted[k])) else None
    {
      s := new DomainStore(parse);
      s.diskMap := persisted;
      var remaining := persisted.Keys;
      while remaining != {}
        invariant s.tree.Valid() && s.diskMap == persisted && s.parse == parse
        invariant remaining <= persisted.Keys
        invariant forall k :: s.tree.Item(k) == if k in persisted && k !in remaining then Some(restore(persisted[k])) else None
        decreases remaining
      {
        var key :| key in remaining;
        ghost var before := s.tree.nodes;
        s.tree.SetItem(key, restore(persisted[key]));
        remaining := remaining - {key};
        forall k ensures s.tree.Item(k) == if k in persisted && k !in remaining then Some(restore(persisted[k])) else None {
          if k != key {
            assert s.tree.Item(k) == ItemOf(before, Splitter(k));
          }
        }
      }
    }

    /** `load` as written: every persisted key comes back, but only with its paths. */
    static method LoadAsWritten(parse: UrlParser, persisted: map<string, Domain>) returns (s: DomainStore)
      ensures fresh(s) && fresh(s.tree) && s.Valid() && s.parse == parse
      ensures s.Keys() == persisted.Keys
      ensures forall k :: s.Get(k) == if k in persisted then Some(RestoreAsWritten(persisted[k])) else None
      ensures forall k :: k in persisted ==> s.Get(k) == Some(RestoreAsWritten(persisted[k]))
    {
      s := LoadWith(parse, persisted, RestoreAsWritten);
    }

    /** `load`: a store with the persisted keys, each answering with its persisted Domain. */
    static method Load(parse: UrlParser, persisted: map<string, Domain>) returns (s: DomainStore)
      ensures fresh(s) && fresh(s.tree) && s.Valid() && s.parse == parse
      ensures s.Keys() == persisted.Keys
      ensures forall k :: s.Get(k) == if k in persisted then Some(Restore(persisted[k])) else None
      ensures forall k :: k in persisted ==> s.Get(k) == Some(Restore(persisted[k]))
      ensures forall k :: k in persisted && persisted[k].isInstance ==> s.Get(k) == Some(persisted[k])
      ensures s.View() == map k | k in persisted :: Restore(persisted[k])
      ensures (forall k | k in persisted :: persisted[k].isInstance) ==> s.Synced()
    {
      s := LoadWith(parse, persisted, Restore);
      forall k | k in persisted
        ensures s.tree.Item(k) == Some(Restore(persisted[k]))
      {
        assert s.Get(k) == Some(Restore(persisted[k]));
      }
      assert s.View() == map k | k in persisted :: Restore(persisted[k]);
    }

    /**
     * A restart, as `load` is written: a store written through by `set`,
     * `update`, `setUrl` and `updateUrl` is loaded again from its persisted map.
     */
    static method ReloadAsWritten(s: DomainStore) returns (r: DomainStore)
      requires s.Synced()
      ensures fresh(r) && r.Valid() && r.parse == s.parse && r.Keys() == s.Keys()
      ensures forall k :: r.Get(k) == if s.Get(k).Some? then Some(RestoreAsWritten(s.Get(k).value)) else None
    {
      r := LoadAsWritten(s.parse, s.diskMap);
      forall k | k in s.diskMap
        ensures s.Get(k) == Some(s.diskMap[k])
      {
      }
    }

    /**
     * A restart with the corrected `load`: every key comes back, each
     * holding the Domain it held before, and the reloaded store is again
     * written through.
     */
    static method Reload(s: DomainStore) returns (r: DomainStore)
      requires s.Synced()
      ensures fresh(r) && r.Valid() && r.parse == s.parse && r.Keys() == s.Keys()
      ensures forall k :: r.Get(k) == if s.Get(k).Some? then Some(Restore(s.Get(k).value)) else None
      ensures forall k :: s.Get(k).Some? && s.Get(k).value.isInstance ==> r.Get(k) == s.Get(k)
      ensures (forall k | k in s.diskMap :: s.diskMap[k].isInstance) ==> r.Synced()
    {
      r := Load(s.parse, s.diskMap);
      forall k | k in s.diskMap
        ensures s.Get(k) == Some(s.diskMap[k])
      {
      }
    }
  }

  // -----------------------------------------------------------------------
  // Store operations the decision handlers call that store.js does not
  // define. They act on the store's content: hostname to Domain.
  // -----------------------------------------------------------------------

  /** `setDomainPath(url, action)`: the URL's path of the URL's host answers with the action. */
  function SetDomainPath(view: map<string, Domain>, parse: UrlParser, url: string, action: Action): (r: map<string, Domain>)
    ensures r.Keys == view.Keys + {parse(url).hostname}
    ensures GetResponse(r[parse(url).hostname], parse(url).pathname) == Full(action)
    ensures forall h :: h in view && h != parse(url).hostname ==> r[h] == view[h]
  {
    var u := parse(url);
    view[u.hostname := UpdateDomainPath(Lookup(view, u.hostname), u.pathname, Full(action), None)]
  }

  /** What a mutator passed to `updateDomain` asks for. */
  datatype Edit = Write(domain: Domain) | Delete | Keep

  /**
   * `updateDomain(url, mutator)`: runs the mutator on the host's Domain (a
   * fresh one when there is none) and writes back, deletes, or leaves the
   * record as the mutator asks.
   */
  function UpdateDomain(view: map<string, Domain>, parse: UrlParser, url: string, mutator: Domain -> Edit): (r: map<string, Domain>)
    ensures forall h :: h != parse(url).hostname ==> Lookup(r, h) == Lookup(view, h)
    ensures
      var host := parse(url).hostname;
      match mutator(Lookup(view, host).GetOr(NewDomain()))
      case Write(d) => host in r && r[host] == d
      case Delete => host !in r
      case Keep => r == view
  {
    var host := parse(url).hostname;
    match mutator(Lookup(view, host).GetOr(NewDomain()))
    case Write(d) => view[host := d]
    case Delete => view - {host}
    case Keep => view
  }

  /** `deleteDomain(url)`: removes the host's record. */
  function DeleteDomain(view: map<string, Domain>, parse: UrlParser, url: string): (r: map<string, Domain>)
    ensures parse(url).hostname !in r
    ensures forall h :: h != parse(url).hostname ==> Lookup(r, h) == Lookup(view, h)
  {
    view - {parse(url).hostname}
  }
}

=== FILE: suffixtree.dfy ===
/**
 * A trie keyed by domain labels read right to left (src/js/suffixtree.js).
 *
 * Every node of the source's tree is reached from the root by exactly one
 * sequence of labels, so the model names each node by that label path: the
 * tree is the set of existing paths (closed under taking prefixes, since a
 * node exists only below its parent) together with each node's label data.
 */
module SuffixTree {
  import opened Wrappers

  type Label = string
  type LabelPath = seq<Label>

  /** Each existing node, by its label path, with its label data (None: no label data). */
  type Nodes<V> = map<LabelPath, Option<V>>

  // ---------------------------------------------------------------------
  // Splitting keys into labels
  // ---------------------------------------------------------------------

  /** `s.split('.')`: n dots give n + 1 labels, none of which contains a dot. */
  function Split(s: string): (parts: seq<Label>)
    ensures |parts| >= 1
    ensures forall i :: 0 <= i < |parts| ==> '.' !in parts[i]
    decreases |s|
  {
    if |s| == 0 then [""]
    else
      var rest := Split(s[1..]);
      if s[0] == '.' then [""] + rest
      else [[s[0]] + rest[0]] + rest[1..]
  }

  /** `parts.join('.')`. */
  function Join(parts: seq<Label>): string
    requires |parts| >= 1
  {
    if |parts| == 1 then parts[0] else parts[0] + "." + Join(parts[1..])
  }

  function Reverse<T>(s: seq<T>): (r: seq<T>)
    ensures |r| == |s|
    ensures forall i :: 0 <= i < |s| ==> r[i] == s[|s| - 1 - i]
  {
    seq(|s|, i requires 0 <= i < |s| => s[|s| - 1 - i])
  }

  /** The source's `splitter`: the labels of a key, most general (right-most) first. */
  function Splitter(key: string): (parts: LabelPath)
    ensures |parts| >= 1
  {
    Reverse(Split(key))
  }

  /** Joining the labels again gives back the key. */
  lemma {:induction false} JoinSplit(s: string)
    ensures Join(Split(s)) == s
    decreases |s|
  {
    if |s| > 0 {
      JoinSplit(s[1..]);
      var rest := Split(s[1..]);
      if s[0] != '.' && |rest| > 1 {
        assert Join(rest) == rest[0] + "." + Join(rest[1..]);
        assert [[s[0]] + rest[0]] + rest[1..] == [[s[0]] + rest[0]] + rest[1..][..];
        assert ([[s[0]] + rest[0]] + rest[1..])[1..] == rest[1..];
        assert s == [s[0]] + s[1..];
      } else if s[0] != '.' {
        assert s == [s[0]] + s[1..];
      } else {
        assert ([""] + rest)[1..] == rest;
        assert s == "." + s[1..];
      }
    }
  }

  /** A dot-free label followed by a dot splits off as the first label. */
  lemma {:induction false} SplitLabelDot(l: Label, t: string)
    requires '.' !in l
    ensures Split(l + "." + t) == [l] + Split(t)
    decreases |l|
  {
    if |l| == 0 {
      assert l + "." + t == "." + t;
      assert ("." + t)[1..] == t;
    } else {
      SplitLabelDot(l[1..], t);
      assert (l + "." + t)[1..] == l[1..] + "." + t;
      assert [l[0]] + l[1..] == l;
    }
  }

  /** A dot-free label splits to itself. */
  lemma {:induction false} SplitLabel(l: Label)
    requires '.' !in l
    ensures Split(l) == [l]
    decreases |l|
  {
    if |l| > 0 {
      SplitLabel(l[1..]);
      assert [l[0]] + l[1..] == l;
    }
  }

  /** Splitting a join of dot-free labels gives the labels back. */
  lemma {:induction false} SplitJoin(parts: seq<Label>)
    requires |parts| >= 1
    requires forall i :: 0 <= i < |parts| ==> '.' !in parts[i]
    ensures Split(Join(parts)) == parts
    decreases |parts|
  {
    if |parts| == 1 {
      SplitLabel(parts[0]);
    } else {
      SplitJoin(parts[1..]);
      SplitLabelDot(parts[0], Join(parts[1..]));
      assert [parts[0]] + parts[1..] == parts;
    }
  }

  /** Two different keys never walk the same label path. */
  lemma SplitterInjective(a: string, b: string)
    requires Splitter(a) == Splitter(b)
    ensures a == b
  {
    var sa, sb := Split(a), Split(b);
    assert |sa| == |sb|;
    forall i | 0 <= i < |sa| ensures sa[i] == sb[i] {
      assert Splitter(a)[|sa| - 1 - i] == Splitter(b)[|sa| - 1 - i];
    }
    assert sa == sb;
    JoinSplit(a);
    JoinSplit(b);
  }

  /** A sub-domain walks its parent's path and then one label further. */
  lemma SplitterExtends(sub: Label, key: string)
    requires '.' !in sub
    ensures Splitter(sub + "." + key) == Splitter(key) + [sub]
  {
    SplitLabelDot(sub, key);
    var s := Split(key);
    var r := Splitter(sub + "." + key);
    assert Split(sub + "." + key) == [sub] + s;
    assert |r| == |s| + 1;
    forall i | 0 <= i < |r| ensures r[i] == (Splitter(key) + [sub])[i] {
      if i < |s| {
        assert r[i] == ([sub] + s)[|s| - i];
      }
    }
  }

  /** The example of the source's own comment: `a.b.com` walks `com`, `b`, `a`. */
  lemma SplitterExample()
    ensures Splitter("a.b.com") == ["com", "b", "a"]
  {
    SplitLabel("com");
    SplitLabelDot("b", "com");
    SplitLabelDot("a", "b.com");
    assert "a.b.com" == "a" + "." + "b.com";
    assert "b.com" == "b" + "." + "com";
  }

  // ---------------------------------------------------------------------
  // The tree as a map from label paths, and what the operations do to it
  // ---------------------------------------------------------------------

  /** A node exists only below its parent, and the root always exists. */
  ghost predicate PrefixClosed<V>(nodes: Nodes<V>) {
    && [] in nodes
    && forall p :: p in nodes && p != [] ==> p[..|p| - 1] in nodes
  }

  /** The paths from the root down to (and including) the node at `path`. */
  function Prefixes(path: LabelPath): set<LabelPath> {
    set k | 0 <= k <= |path| :: path[..k]
  }

  /** What `getItem` finds: the label data of the node at `path`, if that node exists. */
  function ItemOf<V>(nodes: Nodes<V>, path: LabelPath): Option<V> {
    if path in nodes then nodes[path] else None
  }

  /** True when the node at `path` exists and carries label data. */
  predicate HasData<V>(nodes: Nodes<V>, path: LabelPath) {
    path in nodes && nodes[path].Some?
  }

  /** What `setItem` leaves: every missing node on the way created without label data, the last one labelled `v`. */
  function Insert<V>(nodes: Nodes<V>, path: LabelPath, v: V): Nodes<V> {
    map p | p in nodes.Keys + Prefixes(path) :: if p == path then Some(v) else if p in nodes then nodes[p] else None
  }

  /**
   * The accumulator of `branchAgg` after walking the first `n` labels of
   * `parts`: each labelled node's data under the label that led to it, a
   * later (deeper) node overwriting an earlier one with the same label.
   */
  function Collect<V>(nodes: Nodes<V>, parts: LabelPath, n: nat): map<Label, V>
    requires n <= |parts|
  {
    if n == 0 then map[]
    else
      var agg := Collect(nodes, parts, n - 1);
      if HasData(nodes, parts[..n]) then agg[parts[n - 1] := nodes[parts[..n]].value] else agg
  }

  /** What `getBranchData` returns: None when the path is absent, else the full accumulator. */
  function BranchOf<V>(nodes: Nodes<V>, parts: LabelPath): Option<map<Label, V>> {
    if parts in nodes then Some(Collect(nodes, parts, |parts|)) else None
  }

  /** In a prefix-closed tree every node's ancestors exist. */
  lemma {:induction false} AncestorsExist<V>(nodes: Nodes<V>, path: LabelPath, k: nat)
    requires PrefixClosed(nodes)
    requires path in nodes && k <= |path|
    ensures path[..k] in nodes
    decreases |path| - k
  {
    if k < |path| {
      AncestorsExist(nodes, path, k + 1);
      var q := path[..k + 1];
      assert q != [] && q in nodes;
      assert q[..|q| - 1] == path[..k];
    } else {
      assert path[..k] == path;
    }
  }

  /** The prefixes of a path extended by one label are its prefixes and the new path. */
  lemma PrefixesStep(parts: LabelPath, i: nat)
    requires i < |parts|
    ensures Prefixes(parts[..i + 1]) == Prefixes(parts[..i]) + {parts[..i + 1]}
  {
    var longer, shorter := parts[..i + 1], parts[..i];
    forall k | 0 <= k <= i + 1 ensures longer[..k] in Prefixes(shorter) + {longer} {
      if k <= i {
        assert longer[..k] == shorter[..k];
      } else {
        assert longer[..k] == longer;
      }
    }
    forall k | 0 <= k <= i ensures shorter[..k] in Prefixes(longer) {
      assert shorter[..k] == longer[..k];
    }
    assert longer == longer[..i + 1];
  }

  /** Inserting keeps the tree prefix-closed. */
  lemma InsertPrefixClosed<V>(nodes: Nodes<V>, path: LabelPath, v: V)
    requires PrefixClosed(nodes)
    ensures PrefixClosed(Insert(nodes, path, v))
  {
    var after := Insert(nodes, path, v);
    forall p | p in after && p != [] ensures p[..|p| - 1] in after {
      if p !in nodes {
        var k :| 0 <= k <= |path| && p == path[..k];
        assert p[..|p| - 1] == path[..k - 1];
      }
    }
  }

  /** get-after-set: the key just set reads back the value. */
  lemma GetAfterSet<V>(nodes: Nodes<V>, key: string, v: V)
    ensures ItemOf(Insert(nodes, Splitter(key), v), Splitter(key)) == Some(v)
  {
    var path := Splitter(key);
    assert path == path[..|path|];
  }

  /**
   * Setting one key changes no other key's item: the nodes created on the way
   * carry no label data, and no other key walks the same path.
   */
  lemma SetLeavesOthers<V>(nodes: Nodes<V>, key: string, other: string, v: V)
    requires other != key
    ensures ItemOf(Insert(nodes, Splitter(key), v), Splitter(other)) == ItemOf(nodes, Splitter(other))
  {
    if Splitter(other) == Splitter(key) {
      SplitterInjective(other, key);
    }
  }

  /** A second set of the same key only overwrites the label data. */
  lemma SetOverwrites<V>(nodes: Nodes<V>, path: LabelPath, v: V, w: V)
    ensures Insert(Insert(nodes, path, v), path, w) == Insert(nodes, path, w)
  {
    var a, b := Insert(Insert(nodes, path, v), path, w), Insert(nodes, path, w);
    assert path == path[..|path|];
    assert a.Keys == b.Keys;
  }

  /** Every key named by the accumulator was traversed and led to a labelled node. */
  lemma {:induction false} CollectSound<V>(nodes: Nodes<V>, parts: LabelPath, n: nat, l: Label)
    requires n <= |parts|
    requires l in Collect(nodes, parts, n)
    ensures exists i :: 0 <= i < n && parts[i] == l && HasData(nodes, parts[..i + 1])
  {
    if n > 0 {
      if !(HasData(nodes, parts[..n]) && parts[n - 1] == l) {
        CollectSound(nodes, parts, n - 1, l);
      }
    }
  }

  /** Every labelled node on the walk is visible, under its label, in the accumulator. */
  lemma {:induction false} CollectComplete<V>(nodes: Nodes<V>, parts: LabelPath, n: nat, i: nat)
    requires i < n <= |parts|
    requires HasData(nodes, parts[..i + 1])
    ensures parts[i] in Collect(nodes, parts, n)
  {
    if i < n - 1 {
      CollectComplete(nodes, parts, n - 1, i);
    }
  }

  /** When a label repeats along the walk, the deepest labelled node's data wins. */
  lemma {:induction false} CollectDeepestWins<V>(nodes: Nodes<V>, parts: LabelPath, n: nat, i: nat)
    requires i < n <= |parts|
    requires HasData(nodes, parts[..i + 1])
    requires forall j :: i < j < n && parts[j] == parts[i] ==> !HasData(nodes, parts[..j + 1])
    ensures parts[i] in Collect(nodes, parts, n)
    ensures Collect(nodes, parts, n)[parts[i]] == nodes[parts[..i + 1]].value
  {
    if i < n - 1 {
      CollectDeepestWins(nodes, parts, n - 1, i);
    }
  }

  /** getBranchData answers None exactly when the node at the full path is missing. */
  lemma BranchAbsentIff<V>(nodes: Nodes<V>, key: string)
    ensures BranchOf(nodes, Splitter(key)).None? <==> Splitter(key) !in nodes
    ensures BranchOf(nodes, Splitter(key)).Some? ==> ItemOf(nodes, Splitter(key)).Some? ==>
      Splitter(key)[|Splitter(key)| - 1] in BranchOf(nodes, Splitter(key)).value
  {
    var parts := Splitter(key);
    if parts in nodes && ItemOf(nodes, parts).Some? {
      assert parts[..|parts|] == parts;
      CollectComplete(nodes, parts, |parts|, |parts| - 1);
    }
  }

  /**
   * Data set on a parent domain is seen from a sub-domain: when `label.key` is
   * in the tree and `key` has label data, the branch of `label.key` maps the
   * last label of `key` to it (unless `label` itself repeats that label with data).
   */
  lemma BranchSeesParent<V>(nodes: Nodes<V>, sub: Label, key: string)
    requires PrefixClosed(nodes)
    requires '.' !in sub
    requires Splitter(sub + "." + key) in nodes
    requires HasData(nodes, Splitter(key))
    ensures BranchOf(nodes, Splitter(sub + "." + key)).Some?
    ensures Splitter(key)[|Splitter(key)| - 1] in BranchOf(nodes, Splitter(sub + "." + key)).value
  {
    SplitterExtends(sub, key);
    var parts := Splitter(sub + "." + key);
    var n := |Splitter(key)|;
    assert parts[..n] == Splitter(key);
    CollectComplete(nodes, parts, |parts|, n - 1);
  }

  // ---------------------------------------------------------------------
  // The tree object
  // ---------------------------------------------------------------------

  class Tree<V> {
    var nodes: Nodes<V>

    ghost predicate Valid()
      reads this
    {
      PrefixClosed(nodes)
    }

    /** A tree holding only the root node, which has no label data. */
    constructor ()
      ensures Valid()
      ensures nodes == map[[] := None]
    {
      nodes := map[[] := None];
    }

    /** The label data `getItem(key)` answers with. */
    function Item(key: string): Option<V>
      reads this
    {
      ItemOf(nodes, Splitter(key))
    }

    /** `setItem`: walks the key's labels creating missing nodes, then sets the last node's label data. */
    method SetItem(key: string, v: V)
      requires Valid()
      modifies this
      ensures Valid()
      ensures nodes == Insert(old(nodes), Splitter(key), v)
      ensures Item(key) == Some(v)
      ensures forall other :: other != key ==> Item(other) == old(Item(other))
    {
      var parts := Splitter(key);
      var i := 0;
      while i < |parts|
        invariant 0 <= i <= |parts|
        invariant nodes.Keys == old(nodes).Keys + Prefixes(parts[..i])
        invariant forall p :: p in nodes ==> nodes[p] == if p in old(nodes) then old(nodes)[p] else None
      {
        PrefixesStep(parts, i);
        var child := parts[..i + 1];
        if child !in nodes {
          nodes := nodes[child := None];
        }
        i := i + 1;
      }
      assert parts[..i] == parts;
      nodes := nodes[parts := Some(v)];
      assert nodes == Insert(old(nodes), parts, v);
      InsertPrefixClosed(old(nodes), parts, v);
      GetAfterSet(old(nodes), key, v);
      forall other | other != key ensures Item(other) == old(Item(other)) {
        SetLeavesOthers(old(nodes), key, other, v);
      }
    }

    /** `getItem`: None as soon as a label on the way has no node, else the last node's label data. */
    method GetItem(key: string) returns (r: Option<V>)
      requires Valid()
      ensures r == Item(key)
      ensures Splitter(key) !in nodes ==> r.None?
    {
      var parts := Splitter(key);
      var i := 0;
      while i < |parts|
        invariant 0 <= i <= |parts|
        invariant parts[..i] in nodes
      {
        if parts[..i + 1] !in nodes {
          if parts in nodes {
            AncestorsExist(nodes, parts, i + 1);
          }
          return None;
        }
        i := i + 1;
      }
      assert parts[..i] == parts;
      r := nodes[parts];
    }

    /** `getBranchData`: the labelled nodes along the key's path, or None when the path is incomplete. */
    method GetBranchData(key: string) returns (r: Option<map<Label, V>>)
      requires Valid()
      ensures r == BranchOf(nodes, Splitter(key))
    {
      var parts := Splitter(key);
      var agg: map<Label, V> := map[];
      var i := 0;
      while i < |parts|
        invariant 0 <= i <= |parts|
        invariant parts[..i] in nodes
        invariant agg == Collect(nodes, parts, i)
      {
        var node := parts[..i + 1];
        if node !in nodes {
          if parts in nodes {
            AncestorsExist(nodes, parts, i + 1);
          }
          return None;
        }
        if nodes[node].Some? {
          agg := agg[parts[i] := nodes[node].value];
        }
        i := i + 1;
      }
      assert parts[..i] == parts;
      r := Some(agg);
    }
  }
}

=== FILE: tabs.dfy ===
/**
 * The tab tracker (src/js/tabs.js): a record of the open tabs, each holding
 * the frames seen in it, each frame holding the resources it requested. The
 * record is filled from webRequest details by `addResource`.
 *
 * Tabs and Tab are objects updated in place and are classes here. A frame is
 * a value kept in its tab's frame map; updating a frame replaces that value.
 * A parent frame's `children` holds the ids of its child frames, since every
 * child frame object is also the tab's own frame under that id.
 */
module Tabs {
  import opened Wrappers
  import opened Schemes
  import opened Requests

  /** `new Resource(details)`: the url, method and type of one request. */
  datatype Resource = Resource(url: string, httpMethod: string, resourceType: string)

  /** A frame of a tab. `url` and `frameType` are set only for frame requests. */
  datatype Frame = Frame(
    id: int,
    tabId: Option<int>,
    parentId: Option<int>,
    requestId: Option<int>,
    url: Option<string>,
    frameType: Option<string>,
    resources: map<string, Resource>,
    children: set<int>)

  type Frames = map<int, Frame>

  /** The request types a frame records its url for: those ending in `_frame`. */
  predicate IsFrameType(t: string) {
    EndsWith(t, "_frame")
  }

  /** `new Frame(details)`: no resources or children; a url only for a frame request. */
  function NewFrame(d: RequestDetails): (f: Frame)
    ensures f.id == d.frameId && f.tabId == Some(d.tabId) && f.parentId == Some(d.parentFrameId)
    ensures f.resources == map[] && f.children == {}
    ensures f.url.Some? <==> IsFrameType(d.resourceType)
    ensures f.url.Some? ==> f.url.value == d.url && f.frameType == Some(d.resourceType)
  {
    var framed := IsFrameType(d.resourceType);
    Frame(d.frameId, Some(d.tabId), Some(d.parentFrameId), Some(d.requestId),
      if framed then Some(d.url) else None,
      if framed then Some(d.resourceType) else None,
      map[], {})
  }

  /** `new Frame({frameId})`: the url-less frame made for a parent seen only through its children. */
  function Placeholder(frameId: int): (f: Frame)
    ensures f.id == frameId && f.url.None? && f.tabId.None? && f.parentId.None?
    ensures f.resources == map[] && f.children == {}
  {
    Frame(frameId, None, None, None, None, None, map[], {})
  }

  /** `hasUrl`: a resource with this url was recorded in the frame. */
  predicate HasUrl(f: Frame, url: string) {
    url in f.resources
  }

  /** `Frame.hasResource`: the recorded resource for the url has this type (the source fails when there is none). */
  predicate FrameHasResource(f: Frame, url: string, resourceType: string)
    requires HasUrl(f, url)
  {
    f.resources[url].resourceType == resourceType
  }

  /** `recordResource`: records the request's resource unless its url is already recorded. */
  function RecordResource(f: Frame, d: RequestDetails): (r: Frame)
    ensures HasUrl(r, d.url)
    ensures r.resources.Keys == f.resources.Keys + {d.url}
    ensures forall u :: u in f.resources ==> r.resources[u] == f.resources[u]
    ensures !HasUrl(f, d.url) ==> r.resources[d.url] == Resource(d.url, d.httpMethod, d.resourceType)
    ensures r.(resources := f.resources) == f
  {
    if HasUrl(f, d.url) then f
    else f.(resources := f.resources[d.url := Resource(d.url, d.httpMethod, d.resourceType)])
  }

  /** Recording a url a second time keeps the first resource recorded for it. */
  lemma FirstResourceWins(f: Frame, first: RequestDetails, second: RequestDetails)
    requires !HasUrl(f, first.url) && second.url == first.url
    ensures RecordResource(RecordResource(f, first), second).resources[first.url]
         == Resource(first.url, first.httpMethod, first.resourceType)
    ensures RecordResource(RecordResource(f, first), second) == RecordResource(f, first)
  {
  }

  /**
   * What `addResource` does to the frames of the request's tab: the request's
   * frame is created if new, records the resource, and is linked as a child of
   * its parent frame, which is created as a placeholder if new.
   */
  function AddToFrames(frames: Frames, d: RequestDetails): (r: Frames)
    ensures d.frameId in r && HasUrl(r[d.frameId], d.url)
    ensures r.Keys == frames.Keys + {d.frameId} + (if d.parentFrameId == -1 then {} else {d.parentFrameId})
    ensures forall k :: k in frames && k != d.frameId && k != d.parentFrameId ==> r[k] == frames[k]
    ensures d.parentFrameId != -1 ==> d.frameId in r[d.parentFrameId].children
  {
    var withFrame := if d.frameId in frames then frames else frames[d.frameId := NewFrame(d)];
    var recorded := withFrame[d.frameId := RecordResource(withFrame[d.frameId], d)];
    if d.parentFrameId == -1 then recorded
    else
      var withParent := if d.parentFrameId in recorded then recorded
                        else recorded[d.parentFrameId := Placeholder(d.parentFrameId)];
      var parent := withParent[d.parentFrameId];
      withParent[d.parentFrameId := parent.(children := parent.children + {d.frameId})]
  }

  /** A frame already present is kept: only its resources and children can grow. */
  lemma AddReusesFrame(frames: Frames, d: RequestDetails, k: int)
    requires k in frames
    ensures k in AddToFrames(frames, d)
    ensures AddToFrames(frames, d)[k].(resources := frames[k].resources, children := frames[k].children) == frames[k]
    ensures frames[k].resources.Keys <= AddToFrames(frames, d)[k].resources.Keys
    ensures frames[k].children <= AddToFrames(frames, d)[k].children
    ensures forall u :: u in frames[k].resources ==> AddToFrames(frames, d)[k].resources[u] == frames[k].resources[u]
  {
  }

  /**
   * A new frame gets its url exactly when the request is a frame request, and
   * a new parent is a url-less placeholder.
   */
  lemma AddNewFrameUrl(frames: Frames, d: RequestDetails)
    requires d.frameId !in frames
    ensures AddToFrames(frames, d)[d.frameId].url == (if IsFrameType(d.resourceType) then Some(d.url) else None)
    ensures d.parentFrameId != -1 && d.parentFrameId !in frames && d.parentFrameId != d.frameId ==>
      AddToFrames(frames, d)[d.parentFrameId].url.None? &&
      AddToFrames(frames, d)[d.parentFrameId].resources == map[] &&
      AddToFrames(frames, d)[d.parentFrameId].children == {d.frameId}
  {
  }

  /** Adding the same request twice is adding it once. */
  lemma AddToFramesIdempotent(frames: Frames, d: RequestDetails)
    ensures AddToFrames(AddToFrames(frames, d), d) == AddToFrames(frames, d)
  {
    var once := AddToFrames(frames, d);
    var twice := AddToFrames(once, d);
    assert twice.Keys == once.Keys;
    forall k | k in once ensures twice[k] == once[k] {
    }
  }

  /**
   * After the request is added, its frame has the resource of the request's
   * type exactly when the url was new there or was recorded with that type.
   */
  lemma HasResourceAfterAdd(frames: Frames, d: RequestDetails)
    ensures var f := AddToFrames(frames, d)[d.frameId];
      FrameHasResource(f, d.url, d.resourceType) <==>
        !(d.frameId in frames && HasUrl(frames[d.frameId], d.url)) ||
        FrameHasResource(frames[d.frameId], d.url, d.resourceType)
  {
  }

  /** A `main_frame` request for frame 0 of a fresh tab gives the tab its url. */
  lemma MainFrameGivesTabUrl(d: RequestDetails)
    requires d.resourceType == "main_frame" && d.frameId == 0 && d.parentFrameId == -1
    ensures AddToFrames(map[], d)[0].url == Some(d.url)
  {
    assert IsFrameType(d.resourceType) by {
      assert d.resourceType[|d.resourceType| - 6..] == "_frame";
    }
  }

  // -----------------------------------------------------------------------
  // Counter: header name to number of times it was removed. The Counter
  // class is not part of this model; it is a map from name to count.
  // -----------------------------------------------------------------------

  type Counts = map<string, nat>

  /** The count of a name; zero when the name was never counted. */
  function Count(counts: Counts, name: string): nat {
    if name in counts then counts[name] else 0
  }

  /** `add(name)`: one more for that name. */
  function Inc(counts: Counts, name: string): (r: Counts)
    ensures r.Keys == counts.Keys + {name}
    ensures Count(r, name) == Count(counts, name) + 1
    ensures forall n :: n != name ==> Count(r, n) == Count(counts, n)
  {
    counts[name := Count(counts, name) + 1]
  }

  /** `merge(other)`: each name's counts added together. */
  function SumCounts(a: Counts, b: Counts): (r: Counts)
    ensures r.Keys == a.Keys + b.Keys
    ensures forall n :: Count(r, n) == Count(a, n) + Count(b, n)
  {
    map n | n in a.Keys + b.Keys :: Count(a, n) + Count(b, n)
  }

  /** The counts after each removed header's lower-cased name is added, first to last. */
  function AddNames(counts: Counts, removed: seq<Header>): Counts
  {
    if removed == [] then counts
    else Inc(AddNames(counts, removed[..|removed| - 1]), Lower(removed[|removed| - 1].name))
  }

  /** How many of the headers have this lower-cased name. */
  function Occurrences(removed: seq<Header>, name: string): nat
  {
    if removed == [] then 0
    else Occurrences(removed[..|removed| - 1], name) + (if Lower(removed[|removed| - 1].name) == name then 1 else 0)
  }

  /** Marking headers adds, for each name, the number of removed headers with that lower-cased name. */
  lemma {:induction false} AddNamesCounts(counts: Counts, removed: seq<Header>, name: string)
    ensures Count(AddNames(counts, removed), name) == Count(counts, name) + Occurrences(removed, name)
  {
    if removed != [] {
      AddNamesCounts(counts, removed[..|removed| - 1], name);
    }
  }

  /** Marking headers introduces exactly the lower-cased names of the removed headers. */
  lemma {:induction false} AddNamesKeys(counts: Counts, removed: seq<Header>)
    ensures AddNames(counts, removed).Keys == counts.Keys + set h | h in removed :: Lower(h.name)
  {
    if removed != [] {
      var init := removed[..|removed| - 1];
      AddNamesKeys(counts, init);
      assert removed == init + [removed[|removed| - 1]];
      assert (set h | h in removed :: Lower(h.name)) == (set h | h in init :: Lower(h.name)) + {Lower(removed[|removed| - 1].name)};
    }
  }

  /** The frames of a merge: the tab's own frames, and the other's frames under ids the tab lacks. */
  function MergeFrames(mine: Frames, theirs: Frames): (r: Frames)
    ensures r.Keys == mine.Keys + theirs.Keys
    ensures forall k :: k in mine ==> r[k] == mine[k]
    ensures forall k :: k in theirs && k !in mine ==> r[k] == theirs[k]
  {
    map k | k in mine.Keys + theirs.Keys :: if k in mine then mine[k] else theirs[k]
  }

  /** What `getData` hands a listener. */
  datatype TabData = TabData(active: bool, actions: map<string, Action>, headerCounts: Counts, headerCountsActive: bool)

  /** One `onChange` call: the listeners registered at that moment, each given the same data. */
  datatype Notice = Notice(listeners: set<nat>, data: TabData)

  /** Every field of a tab that its methods update, as one value. */
  datatype TabState = TabState(
    frames: Frames, active: bool, action: Option<Action>, actions: map<string, Action>,
    headerCounts: Counts, headerCountsActive: bool, listeners: set<nat>, notices: seq<Notice>)

  class Tab {
    const id: int
    /** The tab's own entries: frame id to frame. */
    var frames: Frames
    var active: bool
    /** The own `action` property the reason handlers set and delete. */
    var action: Option<Action>
    /** URL to the action taken on it. */
    var actions: map<string, Action>
    var headerCounts: Counts
    var headerCountsActive: bool
    /** The registered listeners, by identity. */
    var listeners: set<nat>
    /** Every `onChange` call that reached at least one listener, in order. */
    var notices: seq<Notice>

    /** `new Tab(id)`: active, with no frames, actions or counts. */
    constructor (id: int)
      ensures this.id == id && frames == map[]
      ensures active && action.None? && actions == map[] && headerCounts == map[] && headerCountsActive
      ensures listeners == {} && notices == []
    {
      this.id := id;
      frames := map[];
      active := true;
      action := None;
      actions := map[];
      headerCounts := map[];
      headerCountsActive := true;
      listeners := {};
      notices := [];
    }

    /** The tab's whole updatable state. */
    function State(): (r: TabState)
      reads this
      ensures r.frames == frames && r.active == active && r.action == action && r.actions == actions
      ensures r.headerCounts == headerCounts && r.headerCountsActive == headerCountsActive
      ensures r.listeners == listeners && r.notices == notices
    {
      TabState(frames, active, action, actions, headerCounts, headerCountsActive, listeners, notices)
    }

    /** `getData`: the snapshot listeners receive. */
    function GetData(): (r: TabData)
      reads this
      ensures r.active == active && r.actions == actions
      ensures r.headerCounts == headerCounts && r.headerCountsActive == headerCountsActive
    {
      TabData(active, actions, headerCounts, headerCountsActive)
    }

    method AddListener(listener: nat)
      modifies this`listeners
      ensures listeners == old(listeners) + {listener}
    {
      listeners := listeners + {listener};
    }

    method RemoveListener(listener: nat)
      modifies this`listeners
      ensures listeners == old(listeners) - {listener}
    {
      listeners := listeners - {listener};
    }

    /** `onChange`: every registered listener is handed the current data. */
    method OnChange()
      modifies this`notices
      ensures notices == old(notices) + if listeners == {} then [] else [Notice(listeners, GetData())]
    {
      if listeners != {} {
        notices := notices + [Notice(listeners, GetData())];
      }
    }

    /** `merge(otherTab)`: header counts are added; the other tab's frames fill only ids this tab lacks. */
    method Merge(other: Tab)
      modifies this`headerCounts, this`frames
      ensures headerCounts == SumCounts(old(headerCounts), old(other.headerCounts))
      ensures frames == MergeFrames(old(frames), old(other.frames))
    {
      var counts := SumCounts(headerCounts, other.headerCounts);
      var merged := MergeFrames(frames, other.frames);
      headerCounts := counts;
      frames := merged;
    }

    /** `setActiveState(active)`: sets the flag and notifies. */
    method SetActiveState(a: bool)
      modifies this`active, this`notices
      ensures active == a
      ensures notices == old(notices) + if listeners == {} then [] else [Notice(listeners, GetData())]
    {
      active := a;
      OnChange();
    }

    /** `toggleActiveState`: flips the flag and notifies. */
    method ToggleActiveState()
      modifies this`active, this`notices
      ensures active == !old(active)
      ensures notices == old(notices) + if listeners == {} then [] else [Notice(listeners, GetData())]
    {
      SetActiveState(!active);
    }

    /**
     * `markAction(action, url)`: nothing on an inactive tab; on an active tab
     * REMOVE_ACTION forgets the url's action and any other action is recorded.
     */
    method MarkAction(a: Action, url: string)
      modifies this`actions, this`notices
      ensures !old(active) ==> actions == old(actions) && notices == old(notices)
      ensures old(active) && a.reason == RemoveAction ==> actions == old(actions) - {url}
      ensures old(active) && a.reason != RemoveAction ==> actions == old(actions)[url := a]
      ensures old(active) ==>
        notices == old(notices) + if listeners == {} then [] else [Notice(listeners, GetData())]
    {
      if !active {
        return;
      }
      if a.reason == RemoveAction {
        actions := actions - {url};
      } else {
        actions := actions[url := a];
      }
      OnChange();
    }

    /** `markHeaders(removed)`: counts each removed header under its lower-cased name. */
    method MarkHeaders(removed: seq<Header>)
      modifies this`headerCounts, this`notices
      ensures headerCounts == AddNames(old(headerCounts), removed)
      ensures forall n :: Count(headerCounts, n) == Count(old(headerCounts), n) + Occurrences(removed, n)
      ensures notices == old(notices) + if listeners == {} then [] else [Notice(listeners, GetData())]
    {
      var i := 0;
      while i < |removed|
        invariant 0 <= i <= |removed|
        invariant headerCounts == AddNames(old(headerCounts), removed[..i])
        invariant notices == old(notices)
      {
        assert removed[..i + 1][..i] == removed[..i];
        headerCounts := Inc(headerCounts, Lower(removed[i].name));
        i := i + 1;
      }
      assert removed[..i] == removed;
      forall n ensures Count(headerCounts, n) == Count(old(headerCounts), n) + Occurrences(removed, n) {
        AddNamesCounts(old(headerCounts), removed, n);
      }
      OnChange();
    }
  }

  class Tabs {
    /** Tab id to tab. */
    var data: map<int, Tab>

    constructor ()
      ensures data == map[]
    {
      data := map[];
    }

    /** `getTab`: the tab under the id, if any. */
    function GetTab(tabId: int): (r: Option<Tab>)
      reads this
      ensures r.Some? <==> tabId in data
      ensures r.Some? ==> r.value == data[tabId]
    {
      Lookup(data, tabId)
    }

    /** `hasTab`. */
    predicate HasTab(tabId: int)
      reads this
    {
      tabId in data
    }

    /** `setTab`: replaces the entry for that id only. */
    method SetTab(tabId: int, tab: Tab)
      modifies this
      ensures data == old(data)[tabId := tab]
    {
      data := data[tabId := tab];
    }

    /** `removeTab`: deletes the entry and tells whether there was one; removing again changes nothing. */
    method RemoveTab(tabId: int) returns (existed: bool)
      modifies this
      ensures existed <==> tabId in old(data)
      ensures data == old(data) - {tabId}
      ensures tabId !in data
    {
      existed := tabId in data;
      data := data - {tabId};
    }

    /** `getFrameUrl`: the frame's url; None for an unknown tab or frame or a url-less frame. */
    function GetFrameUrl(tabId: int, frameId: int): (r: Option<string>)
      reads this, data.Values
      ensures r.Some? ==> tabId in data && frameId in data[tabId].frames
      ensures tabId in data && frameId in data[tabId].frames ==> r == data[tabId].frames[frameId].url
    {
      if tabId in data && frameId in data[tabId].frames then data[tabId].frames[frameId].url else None
    }

    /** `getTabUrl`: the url of the tab's frame 0. */
    function GetTabUrl(tabId: int): (r: Option<string>)
      reads this, data.Values
      ensures r == GetFrameUrl(tabId, 0)
    {
      GetFrameUrl(tabId, 0)
    }

    /**
     * `hasResource`: never fails; false for an unknown tab, frame or url, and
     * otherwise whether the url was recorded with this type.
     */
    function HasResource(tabId: int, frameId: int, url: string, resourceType: string): (r: bool)
      reads this, data.Values
      ensures r <==> (tabId in data && frameId in data[tabId].frames &&
        HasUrl(data[tabId].frames[frameId], url) && FrameHasResource(data[tabId].frames[frameId], url, resourceType))
    {
      if tabId in data && frameId in data[tabId].frames && HasUrl(data[tabId].frames[frameId], url)
      then FrameHasResource(data[tabId].frames[frameId], url, resourceType)
      else false
    }

    /**
     * `addResource`: a request of an unseen tab, or a `main_frame` request,
     * starts a fresh tab; then the request is added to the tab's frames.
     */
    method AddResource(d: RequestDetails)
      modifies this, if d.tabId in data && d.resourceType != "main_frame" then {data[d.tabId]} else {}
      ensures data.Keys == old(data.Keys) + {d.tabId}
      ensures forall t :: t in old(data) && t != d.tabId ==> data[t] == old(data[t])
      ensures d.tabId !in old(data) || d.resourceType == "main_frame" ==>
        && fresh(data[d.tabId]) && data[d.tabId].id == d.tabId
        && data[d.tabId].State() == TabState(AddToFrames(map[], d), true, None, map[], map[], true, {}, [])
      ensures d.tabId in old(data) && d.resourceType != "main_frame" ==>
        && data[d.tabId] == old(data[d.tabId])
        && data[d.tabId].State() == old(data[d.tabId].State()).(frames := AddToFrames(old(data[d.tabId].frames), d))
    {
      if d.tabId !in data || d.resourceType == "main_frame" {
        var created := new Tab(d.tabId);
        data := data[d.tabId := created];
      }
      var tab := data[d.tabId];
      if d.frameId !in tab.frames {
        tab.frames := tab.frames[d.frameId := NewFrame(d)];
      }
      tab.frames := tab.frames[d.frameId := RecordResource(tab.frames[d.frameId], d)];
      if d.parentFrameId == -1 {
        return;
      }
      if d.parentFrameId !in tab.frames {
        tab.frames := tab.frames[d.parentFrameId := Placeholder(d.parentFrameId)];
      }
      var parent := tab.frames[d.parentFrameId];
      tab.frames := tab.frames[d.parentFrameId := parent.(children := parent.children + {d.frameId})];
    }

    /** `markAction(action, url, tabId)`: the tab's `markAction` (the source fails for an unknown tab). */
    method MarkAction(a: Action, url: string, tabId: int)
      requires tabId in data
      modifies data[tabId]
      ensures !old(data[tabId].active) ==> data[tabId].actions == old(data[tabId].actions)
      ensures old(data[tabId].active) && a.reason == RemoveAction ==> data[tabId].actions == old(data[tabId].actions) - {url}
      ensures old(data[tabId].active) && a.reason != RemoveAction ==> data[tabId].actions == old(data[tabId].actions)[url := a]
      ensures
        var t := data[tabId];
        t.notices == old(t.notices) + if old(t.active) && t.listeners != {} then [Notice(t.listeners, t.GetData())] else []
      ensures
        var t := data[tabId];
        t.State() == old(t.State()).(actions := t.actions, notices := t.notices)
    {
      data[tabId].MarkAction(a, url);
    }

    /** `markHeaders(removed, tabId)`: the tab's `markHeaders` (the source fails for an unknown tab). */
    method MarkHeaders(removed: seq<Header>, tabId: int)
      requires tabId in data
      modifies data[tabId]
      ensures data[tabId].headerCounts == AddNames(old(data[tabId].headerCounts), removed)
      ensures forall n :: Count(data[tabId].headerCounts, n) == Count(old(data[tabId].headerCounts), n) + Occurrences(removed, n)
      ensures
        var t := data[tabId];
        t.notices == old(t.notices) + if t.listeners == {} then [] else [Notice(t.listeners, t.GetData())]
      ensures
        var t := data[tabId];
        t.State() == old(t.State()).(headerCounts := t.headerCounts, notices := t.notices)
    {
      data[tabId].MarkHeaders(removed);
    }
  }
}

=== FILE: wrappers.dfy ===
/** Optional values: JavaScript's `undefined` on the one hand, a present value on the other. */
module Wrappers {

  datatype Option<+T> = None | Some(value: T) {

    /** The value, or `default` when there is none (JavaScript's `x || default`). */
    function GetOr(default: T): T {
      match this
      case Some(v) => v
      case None => default
    }
  }

  /** Looks `k` up in `m`, giving None for a missing key as a JavaScript Map does. */
  function Lookup<K, V>(m: map<K, V>, k: K): Option<V> {
    if k in m then Some(m[k]) else None
  }
}
